=== FILE: README.md ===
# Packet module generator, modelled in Dafny

The protocol crate's build script (`protocol/build.rs`) reads two YAML tables.
One maps codec names to Rust types. The other maps packet ids to packet
definitions. Each definition has an optional dotted name, a model id and a
field map from field name to codec. The script writes a Rust source file from
these tables. The steps are:

1. Convert every field name to snake_case and every codec to its Rust type.
   Packets that use an unknown codec are recorded as skipped.
2. Drop the skipped packets.
3. Rewrite each remaining name's `.` to `::`. Group the names into a tree of
   modules under the root `packets`: every `::`-separated part except the
   last is a module, and empty parts are skipped.
4. Walk the tree depth first, writing each module's child modules (in key
   order) before its own packets. For each packet, rebuild its dotted name
   from the modules on the path, look the definition up by that name, and
   emit a struct, a codec implementation and a `Packet` implementation.
   Everything is indented two spaces per level.

The model covers these steps as pure functions, one module per concern:

| Dafny module | what it models |
|---|---|
| `Results` | `Option` and `Result`. A `Failure` stands for the `unwrap` panic at line 154. |
| `Ordering` | Rust's `String` order (char-wise lexicographic) as `Below`. |
| `OrderedMap` | `BTreeMap<String, V>` as an ordered association list `Table`. |
| `Paths` | `str::split("::")`, the `.` → `::` rewrite, and the path prefix `fmt` rebuilds. |
| `ModuleTree` | `Module`, `Module::new` and `Module::group_identifiers`, plus the leaf names `fmt` rebuilds. |
| `Indent` | `indent`, and `str::lines` as far as `indent` uses it. |
| `Codegen` | `generate_struct` and `generate_codec`. The generated text is modelled as declarations and statements, and the generated encoder and decoder are executed over token sequences. |
| `Definitions` | `PacketDefinition`, the conversion loop, `retain`, and the `find` by name. |
| `Emit` | `fmt`, as a sequence of items: open module, packet, close module. |
| `Pipeline` | The `main` path from the definitions to the emitted items. |

The codec table is a `map<string, string>`. The packet table is a sequence of
`(id, definition)` pairs. Where it matters, the ids are required to ascend
(`IdsAscending`), which is what `BTreeMap<i32, _>` guarantees. The
camel-to-snake conversion of the `convert_case` crate is a function
parameter `snake`.

## Model

| member | source | states |
|---|---|---|
| OrderedMap.Get | protocol/build.rs:110-111 | A lookup finds a value exactly when the key is in the table. |
| OrderedMap.Insert | protocol/build.rs:202 | Inserting keeps the table ordered. It adds exactly the key, the key then maps to the new value (overwriting any earlier one), and every other key is unchanged. |
| OrderedMap.EntriesAscending | protocol/build.rs:29-30 | Iteration visits the entries in strictly ascending key order. Each entry is in the table with that value, and every key is visited. |
| Ordering.BelowTransitive | protocol/build.rs:85 | The key order of a `BTreeMap<String, _>` is transitive. |
| Ordering.BelowTotal | protocol/build.rs:85 | For any two distinct keys, one is below the other. |
| Ordering.BelowAsymmetric | protocol/build.rs:85 | No two keys are each below the other. |
| Ordering.BelowIrreflexive | protocol/build.rs:85 | No key is below itself. |
| Paths.SplitPath | protocol/build.rs:102 | Splitting on `::` always yields at least one part. |
| Paths.JoinSplitPath | protocol/build.rs:102 | Joining the parts of a split with `::` gives back the identifier, so the split loses nothing. |
| Paths.SplitJoinPath | protocol/build.rs:102 | Splitting a `::`-join of colon-free parts gives back those parts. |
| Paths.SplitPathColonFree | protocol/build.rs:102 | A colon-free part in front of `::` is split off as exactly one part. |
| Paths.SplitReplaceDots | protocol/build.rs:217 | For a colon-free name, splitting the `::` rewrite on `::` gives the name's `.`-separated segments. |
| Paths.JoinSplitDots | protocol/build.rs:153 | Joining the `.`-segments of a name in the way line 153 does (each module name followed by `.`, then the leaf) gives back the name. |
| Paths.PathPrefixAppend | protocol/build.rs:153 | The prefix for a path one module longer is the old prefix plus that module's name and `.`. |
| Paths.NonEmpty | protocol/build.rs:106-108 | Skipping empty parts leaves only non-empty parts, and never more parts than were given. |
| Paths.NonEmptySingle | protocol/build.rs:106-108 | A single part is walked exactly when it is not empty. |
| Paths.NonEmptyConcat | protocol/build.rs:106-108 | The parts walked for a joined path are those walked for each piece, in order, so every non-empty part is kept and every empty one skipped. |
| Paths.NonEmptyKeepsFullPaths | protocol/build.rs:106-108 | A path with no empty part is walked unchanged. |
| ModuleTree.NewModule | protocol/build.rs:90-96 | A new module is well formed and has the given name. It declares no identifier at any path and yields no leaf names. |
| ModuleTree.InsertLeaf | protocol/build.rs:103-115 | Filing one identifier keeps the tree invariant: each child's name equals its key, keys are ordered and non-empty. The module's name is unchanged. |
| ModuleTree.ChildWellFormed | protocol/build.rs:110-111 | An existing child found under a key has that key as its name and is itself well formed, so reusing it keeps the invariant. |
| ModuleTree.InsertKeepsChildrenWellFormed | protocol/build.rs:110-111 | Storing a well-formed child under its own non-empty name keeps the children well formed. |
| ModuleTree.InsertLeafIdsAt | protocol/build.rs:105-115 | Filing a leaf appends it to the identifiers of the module at its non-empty path, and only there. Every other module's identifiers are unchanged. |
| ModuleTree.InsertLeafLookup | protocol/build.rs:110-111 | After filing, a module exists at a path exactly when it existed before or the path is a prefix of the leaf's non-empty path. A shared prefix reuses the existing child, and no other module is created. |
| ModuleTree.InsertLeafNames | protocol/build.rs:105-115 | Filing a leaf adds exactly one rebuilt name, the module path's prefix followed by the leaf, and keeps every other name. |
| ModuleTree.AddIdentifier | protocol/build.rs:101-116 | One identifier keeps the tree well formed and the root's name unchanged. |
| ModuleTree.GroupIdentifiers | protocol/build.rs:98-119 | The grouped tree is well formed and the root carries the given name. |
| ModuleTree.GroupIdsAt | protocol/build.rs:98-119 | The module at path `q` declares exactly the last parts of the identifiers filed at `q` (empty parts skipped), in input order. |
| ModuleTree.GroupModules | protocol/build.rs:98-119 | A module exists at path `q` exactly when `q` is the root or a prefix of some identifier's non-empty module path. |
| ModuleTree.GroupLeafNames | protocol/build.rs:98-119 | There are as many leaves as identifiers. The names `fmt` rebuilds are, as a multiset, the identifiers' rebuilt names. |
| ModuleTree.ChildNamesAreKeys | protocol/build.rs:110-111 | In a well-formed tree, the children's names in iteration order are their keys, so `fmt` opens them in ascending key order. |
| ModuleTree.NameRoundTrip | protocol/build.rs:153 | For a well-formed dotted name (no colon, no empty segment before the last), the name `fmt` rebuilds after the `.` → `::` rewrite of line 217 and the grouping is the name itself. |
| Indent.Pad | protocol/build.rs:123 | The padding has `2 * depth` characters, all spaces. |
| Indent.Lines | protocol/build.rs:125 | No line produced by `str::lines` contains a newline. |
| Indent.NewlineIndex | protocol/build.rs:125 | The cut point is the first newline, or the end of the text when there is none. |
| Indent.IndentLinesLength | protocol/build.rs:124-129 | The indented text is as long as the lines together, plus the padding width and one character for each line. |
| Indent.IndentLines | protocol/build.rs:124-129 | The loop of `indent`; its contract is stated by `Indent.IndentLinesLength` and `Indent.LinesOfIndentLines`. |
| Indent.Indent | protocol/build.rs:122-132 | `indent` itself; its contract is stated by `Indent.IndentLength`, `Indent.ReSplitIndented` and `Indent.IndentTwice`. |
| Indent.IndentLength | protocol/build.rs:122-132 | The output of `indent` is as long as the lines of the input plus `2 * depth + 1` characters for each line. |
| Indent.LinesOfTerminatedLine | protocol/build.rs:125 | A line ended by `\n` is one line of `str::lines` (minus one trailing `\r`), followed by the lines of the rest. |
| Indent.NewlineIndexOf | protocol/build.rs:125 | For a newline-free line followed by `\n`, the first newline is right after the line. |
| Indent.LinesOfIndentLines | protocol/build.rs:124-129 | Re-splitting indented lines gives one line per input line: the padding followed by the line. |
| Indent.ReSplitIndented | protocol/build.rs:122-132 | The output of `indent` has exactly as many lines as its input. Each output line is the padding followed by the corresponding input line with one trailing `\r` removed (`StripCR`). That `\r` is already gone from lines ended by `\n`, so only a final line without `\n`, such as `x\r`, loses it: indenting it by 1 re-splits as `  x`. |
| Indent.ReSplitCarriageReturn | protocol/build.rs:122-132 | `str::lines` keeps the `\r` of a final `x\r`, and the re-split output of `indent` by 1 is the single line `  x`. |
| Indent.IndentLinesAgain | protocol/build.rs:122-132 | Indenting already-indented lines adds the two paddings, when no line ends in `\r`. |
| Indent.PadEndsWithSpace | protocol/build.rs:123 | Padding never ends in `\r`. |
| Indent.PadAdds | protocol/build.rs:123 | Two paddings in a row are the padding for the sum of the depths. |
| Indent.ConcatPads | protocol/build.rs:126-127 | Indenting padded lines is indenting the bare lines with both paddings. |
| Indent.IndentTwice | protocol/build.rs:122-132 | Indenting by `a` and then by `b` is indenting by `a + b`, when no input line ends in `\r`. |
| Codegen.GenerateStruct | protocol/build.rs:20-34 | One field per map entry, with the type the map gives it, in strictly ascending name order. |
| Codegen.GenerateCodec | protocol/build.rs:36-65 | As many encode statements as decode statements as entries. All encodes come first and then all decodes, each naming a field of the map. |
| Codegen.FieldOrderAgrees | protocol/build.rs:20-65 | The encoder writes, the decoder reads and the struct declares the same fields in the same order. Those fields are exactly the map's keys. |
| Codegen.RunDecode | protocol/build.rs:49-53 | With each field's codec taken as one token, the generated `decode` succeeds exactly when there is one token per statement, and leaves the rest of the input unread. |
| Codegen.OverlayContents | protocol/build.rs:50-51 | Decoding starts from the default value. Fields that are decoded take the decoded value, and others keep the default. |
| Codegen.DecodeEncoded | protocol/build.rs:44-53 | Decoding what an encoder with the same field order wrote overlays the encoded fields on the start value and consumes exactly the encoded tokens. |
| Codegen.CodecRoundTrip | protocol/build.rs:36-65 | With each field's codec taken as one token that decodes to the value encoded, decoding what the generated encoder wrote, followed by any further input, gives back the encoded value and the further input. |
| Definitions.ResolveFields | protocol/build.rs:198-207 | The converted field map is ordered. The packet is flagged exactly when one of its codecs has no type. |
| Definitions.ResolvedFieldNames | protocol/build.rs:198-207 | A key is in the converted map exactly when it is the snake_case form of a field whose codec has a type. |
| Definitions.ResolvedFieldType | protocol/build.rs:198-207 | A converted field maps to its codec's type when no later field with a known codec has the same snake_case name, since the last insert wins. |
| Definitions.ConvertAll | protocol/build.rs:197-210 | Every packet keeps its id and gets its converted fields. The skipped set is exactly the ids of packets with an unknown codec. |
| Definitions.Retain | protocol/build.rs:213 | Every kept packet was in the input and is not skipped, and every non-skipped packet is kept. |
| Definitions.RetainAscending | protocol/build.rs:213 | Dropping packets keeps the ids ascending. |
| Definitions.FindIdIn | protocol/build.rs:193 | With ascending ids, lookup by id finds a definition exactly when the pair is in the table. |
| Definitions.Resolve | protocol/build.rs:197-213 | The conversion loop followed by `retain`; its contract is stated by `Definitions.ResolveKeeps`. |
| Definitions.ResolveKeeps | protocol/build.rs:197-213 | After conversion and `retain`, a packet is present exactly when all its codecs are known, and then with its converted fields. Ids stay ascending. |
| Definitions.NamesOf | protocol/build.rs:215-216 | Every name collected belongs to some packet, and every packet that has a name contributes it. |
| Definitions.NamesOfSingle | protocol/build.rs:215-216 | One packet contributes its name when it has one and nothing otherwise. |
| Definitions.NamesOfConcat | protocol/build.rs:215-216 | The names of two tables in a row are the names of the first followed by those of the second, so the names keep table order. |
| Definitions.FindByName | protocol/build.rs:154 | `find` fails exactly when no packet has the name. Otherwise it returns a packet of the table with that name, and with ascending ids the one with the smallest id. |
| Emit.EmitPackets | protocol/build.rs:152-169 | The module's own packets are emitted one per identifier, in identifier order and one level deeper. Each is named by the rebuilt path. Its id is the id `find` returns for that name (line 154), and its model id, struct and codec are generated from the definition found (lines 163-165). Emission fails exactly when some rebuilt name has no packet. |
| Emit.EmitModule | protocol/build.rs:134-177 | `fmt` succeeds exactly when every rebuilt leaf name has a packet. On success it opens the module first and closes it last, writes the children's items (nested deeper) before the module's own packets, and writes packet names equal to the module's rebuilt leaf names, in order. The only module opened at its own depth is itself, and the modules opened one level deeper are its children, under their own names and in key order. Every packet written carries the id, struct and codec of the packet found for its name. |
| Emit.EmitChildren | protocol/build.rs:147-150 | The modules opened at the children's depth are exactly the children, under their own names and in key order. Their packet names are the children's rebuilt leaf names, and nothing is written at or above the parent's depth. Failure occurs exactly when a name has no packet. Every packet written carries the id, struct and codec of the packet found for its name. |
| Emit.AssembledModule | protocol/build.rs:141-172 | Opening, then the children, then the own packets, then closing gives a module whose body is nested deeper and whose tail is its own packets. |
| Emit.AssembledPaths | protocol/build.rs:141-172 | The packet names of a module are those of its children followed by its own. |
| Emit.PacketPathsConcat | protocol/build.rs:141-172 | The packet names of concatenated output are the names of each part, in order. |
| Emit.GeneratedConcat | protocol/build.rs:147-165 | Output whose parts each carry the generated struct and codec of their packets still does when the parts are joined. |
| Emit.ModulePlacement | protocol/build.rs:139-176 | Whatever modules are already open, one module's output closes every module it opens. Every packet in it sits inside that module. Below it, the packet sits inside exactly the modules its dotted name spells after the module's prefix, at one indentation level per open module. So each struct is declared at the path its name gives. |
| Emit.ChildrenPlacement | protocol/build.rs:147-150 | The children's output closes every module it opens. Every packet sits inside exactly the modules its dotted name spells after the parent's prefix, one level deeper per module. |
| Emit.EnclosingConcat | protocol/build.rs:148-174 | The modules open after two pieces of output are those left open by the first and then changed by the second. |
| Emit.OpenedAtConcat | protocol/build.rs:141 | The modules opened at a depth by two pieces of output are those of each piece, in order. |
| Emit.AllFoundConcat | protocol/build.rs:154 | Every name of two parts has a packet exactly when every name of each part does. |
| Pipeline.ResolvedFieldsOrdered | protocol/build.rs:197-213 | Every packet left after conversion and `retain` has an ordered field map. |
| Pipeline.RetainFieldsOrdered | protocol/build.rs:213 | `retain` keeps the field maps ordered. |
| Pipeline.KeptNamesWellFormed | protocol/build.rs:213 | `retain` keeps well-formed names well formed. |
| Pipeline.RebuiltNamesAt | protocol/build.rs:153 | The rebuilt names are those of the identifiers, position by position. |
| Pipeline.RebuiltAreNames | protocol/build.rs:153-154 | With well-formed names, the names `fmt` rebuilds are the packet names themselves. |
| Pipeline.Generate | protocol/build.rs:192-227 | The generation path of `main`; its contract is stated by `Pipeline.GenerateWritesEveryKeptPacket` and `Pipeline.EmptySegmentPanics`. |
| Pipeline.GenerateWritesEveryKeptPacket | protocol/build.rs:192-227 | When the names of the packets kept after conversion are well formed, generation does not panic. The packets written are exactly the kept packets that have a name, each once. Each carries the struct and codec generated from its kept definition. The output opens `packets` as its only top-level module and closes every module it opens. Every packet sits inside `packets` and then inside exactly the modules its dotted name spells, at one indentation level per module. So the path `super::packets::…` that line 236 registers names its struct. |
| Pipeline.KeptLeavesFound | protocol/build.rs:153-154 | With well-formed names, the names `fmt` rebuilds from the grouped tree are the packet names, each once, and each finds its packet. |
| Pipeline.FoundFromNames | protocol/build.rs:154 | Any arrangement of the collected names finds a packet for each name. |
| Pipeline.EmptySegmentPanics | protocol/build.rs:101-116 | The well-formedness precondition above is needed. Empty parts are skipped when filing (lines 106-108), so a name with an empty segment such as `a..b` is filed as `a.b`. The lookup of line 154 then finds nothing, and generation fails where the source panics. |
| Pipeline.ResolveNoFields | protocol/build.rs:197-213 | A table whose packets have no fields is kept whole and unchanged: no codec is looked up, so none is skipped. |
| Pipeline.RetainNothing | protocol/build.rs:213 | `retain` with no skipped id keeps the whole table. |
| Pipeline.RewriteEmptySegment | protocol/build.rs:217 | `a..b` is rewritten to `a::::b`. |
| Pipeline.SplitEmptySegment | protocol/build.rs:102 | `a::::b` splits into `a`, an empty part and `b`. |
| Pipeline.GroupEmptySegment | protocol/build.rs:101-116 | `a::::b` is filed as leaf `b` of a single child module `a`, because the empty part is skipped. |
| Pipeline.LeavesOfEmptySegment | protocol/build.rs:153 | That tree's only rebuilt name is `a.b`. |

## Left out

- File and environment I/O: reading the YAML files, `OUT_DIR`, the `cargo:` lines printed on stdout (lines 187-188 and 204), and writing the output file. The tables arrive as parameters.
- YAML decoding (`serde_yaml`): the model starts from decoded tables.
- `convert_case`'s camel-to-snake conversion (line 200): it is a parameter `snake`. Its collisions are stated as a precondition of `ResolvedFieldType`, not resolved.
- Exact output text. The `formatdoc!` templates, the `use` lines written at lines 143-145, the `/* Packet … */` comment, the file header (lines 221-224) and the `fmt::Result` of `writeln!` into a `String` (which cannot fail) are modelled as items and statements, not characters.
- `generate_packet` (lines 67-80): it is pure text with no structure beyond copying the id and model id. The model only records the id, which `Emit.EmitPackets` carries in each packet item.
- `register_packets` (lines 229-239): it is a flat loop that prints one registration per named packet, and it adds no property beyond the names `Definitions.NamesOf` collects.
- The `definition.name.is_none()` branch (lines 157-160): it is unreachable, because `find` only returns packets whose name equals the rebuilt path.
- The mutable `path` stack of `fmt` (lines 139, 148, 174): it is modelled by the string prefix it spells, `prefix + child.name + "."`. The modules open around each written item are recomputed from the output by `Emit.Enclosing`.
- The `i32` width of ids and model ids: ids are `int`. The model never does arithmetic on them, so nothing wraps.
- Indent.IndentTwice: it requires that no input line ends in `\r`. `str::lines` strips one trailing `\r` only from a line ended by `\n`, so indenting a line such as `x\r` twice differs from indenting it once.
- Indent.Lines: `str::lines` is modelled directly (split after `\n`, drop the `\n` and then one `\r`; a final piece without `\n` is kept as it is; no empty final line). It is not derived from Rust's iterator code.
- Pipeline.GenerateWritesEveryKeptPacket: when two packets share a name, `find` returns the first of them for both leaves, so both items carry that first packet's struct and codec. The statement is about the names written and the packet found for each, not a claim that every kept definition is generated.
- Codegen.RunDecode: the `CodecRegistry` calls of lines 57 and 61 are not part of this model. Each field's codec is one self-delimiting token, and running out of input is the only decode error. A field whose bytes are malformed, which makes the real `decode` return `Err`, is not modelled.
- Codegen.CodecRoundTrip: it holds under the same token abstraction. Each field's codec is assumed to decode exactly the value it encoded, and `encode` never fails. An `Err` that `registry.encode` returns through its `?` (line 57) is not modelled.
- Stack depth and allocation: `fmt` recurses once per module level, and `String::with_capacity` is only a hint.


=== FILE: codegen.dfy ===
/** `generate_struct` and `generate_codec` (protocol/build.rs lines 20-65): the
    struct declaration and the `Codec` implementation generated for one packet.
    The templates' fixed text is left out; what is kept is, per field, the line
    the template repeats, in the order the field map is iterated. */
module Codegen {
  import opened Results
  import opened Ordering
  import opened OrderedMap

  /** `pub {name}: {type},` */
  datatype FieldDecl = FieldDecl(name: string, ty: string)

  datatype StructDecl = StructDecl(name: string, fields: seq<FieldDecl>)

  /** `registry.encode(writer, &value.{field})?;` and
      `value.{field} = registry.decode(reader)?;` */
  datatype Statement = EncodeField(field: string) | DecodeField(field: string)

  datatype CodecImpl = CodecImpl(name: string, encode: seq<Statement>, decode: seq<Statement>)

  /** `generate_struct`: one field declaration per entry of the field map, in
      iteration order. */
  function GenerateStruct(name: string, fields: Table<string>): (r: StructDecl)
    requires Ordered(fields)
    ensures r.name == name && |r.fields| == |Entries(fields)|
    ensures forall i :: 0 <= i < |r.fields| ==> Get(fields, r.fields[i].name) == Some(r.fields[i].ty)
    ensures forall i, j :: 0 <= i < j < |r.fields| ==> Below(r.fields[i].name, r.fields[j].name)
  {
    EntriesAscending(fields);
    var es := Entries(fields);
    StructDecl(name, seq(|es|, i requires 0 <= i < |es| => FieldDecl(es[i].0, es[i].1)))
  }

  /** `generate_codec`: one encode statement and one decode statement per
      entry of the field map, both in iteration order. */
  function GenerateCodec(name: string, fields: Table<string>): (r: CodecImpl)
    requires Ordered(fields)
    ensures r.name == name
    ensures |r.encode| == |r.decode| == |Entries(fields)|
    ensures forall i :: 0 <= i < |r.encode| ==> r.encode[i].EncodeField? && r.decode[i].DecodeField?
    ensures forall i :: 0 <= i < |r.encode| ==> r.encode[i].field in Keys(fields)
  {
    EntriesAscending(fields);
    var es := Entries(fields);
    CodecImpl(name,
      seq(|es|, i requires 0 <= i < |es| => EncodeField(es[i].0)),
      seq(|es|, i requires 0 <= i < |es| => DecodeField(es[i].0)))
  }

  function FieldsOf(statements: seq<Statement>): (r: seq<string>)
    ensures |r| == |statements|
    ensures forall i :: 0 <= i < |r| ==> r[i] == statements[i].field
  {
    if |statements| == 0 then [] else [statements[0].field] + FieldsOf(statements[1..])
  }

  function DeclaredNames(decl: StructDecl): (r: seq<string>)
    ensures |r| == |decl.fields|
    ensures forall i :: 0 <= i < |r| ==> r[i] == decl.fields[i].name
  {
    seq(|decl.fields|, i requires 0 <= i < |decl.fields| => decl.fields[i].name)
  }

  /** The struct declares, the encoder writes and the decoder reads the same
      fields in the same order: every key of the field map once, in ascending
      key order. */
  lemma FieldOrderAgrees(name: string, fields: Table<string>)
    requires Ordered(fields)
    ensures FieldsOf(GenerateCodec(name, fields).encode) == FieldsOf(GenerateCodec(name, fields).decode)
                                                        == DeclaredNames(GenerateStruct(name, fields))
    ensures forall k :: k in Keys(fields) <==> k in FieldsOf(GenerateCodec(name, fields).encode)
  {
    EntriesAscending(fields);
    var enc := FieldsOf(GenerateCodec(name, fields).encode);
    forall k | k in Keys(fields) ensures k in enc {
      var i :| 0 <= i < |Entries(fields)| && Entries(fields)[i].0 == k;
      assert enc[i] == k;
    }
  }

  // ----- what the generated code does with a value -----

  /** The tokens the generated `encode` writes: one per statement, the value of
      the statement's field, in statement order. */
  function RunEncode<V>(statements: seq<Statement>, value: map<string, V>): (out: seq<V>)
    requires forall i :: 0 <= i < |statements| ==> statements[i].field in value
    ensures |out| == |statements|
    ensures forall i :: 0 <= i < |out| ==> out[i] == value[statements[i].field]
  {
    if |statements| == 0 then []
    else [value[statements[0].field]] + RunEncode(statements[1..], value)
  }

  /** The generated `decode`: start from `value`, then for each statement in
      order take the next token for its field. Running out of tokens is the `?`
      error return. The tokens not consumed are returned with the value. */
  function RunDecode<V>(statements: seq<Statement>, input: seq<V>, value: map<string, V>): (r: Option<(map<string, V>, seq<V>)>)
    ensures r.Some? <==> |statements| <= |input|
    ensures r.Some? ==> r.value.1 == input[|statements|..]
  {
    if |statements| == 0 then Some((value, input))
    else if |input| == 0 then None
    else RunDecode(statements[1..], input[1..], value[statements[0].field := input[0]])
  }

  /** `value` written over `start` for each of `fields`, one after the other. */
  function Overlay<V>(start: map<string, V>, fields: seq<string>, value: map<string, V>): (r: map<string, V>)
    requires forall i :: 0 <= i < |fields| ==> fields[i] in value
    decreases |fields|
  {
    if |fields| == 0 then start else Overlay(start[fields[0] := value[fields[0]]], fields[1..], value)
  }

  lemma {:induction false} OverlayContents<V>(start: map<string, V>, fields: seq<string>, value: map<string, V>)
    requires forall i :: 0 <= i < |fields| ==> fields[i] in value
    ensures forall k :: k in Overlay(start, fields, value) <==> k in start || k in fields
    ensures forall k :: k in Overlay(start, fields, value) ==>
              Overlay(start, fields, value)[k] == if k in fields then value[k] else start[k]
    decreases |fields|
  {
    if |fields| > 0 {
      OverlayContents(start[fields[0] := value[fields[0]]], fields[1..], value);
      assert forall k :: k in fields <==> k == fields[0] || k in fields[1..];
    }
  }

  lemma {:induction false} DecodeEncoded<V>(fields: seq<string>, enc: seq<Statement>, dec: seq<Statement>,
                                            value: map<string, V>, start: map<string, V>, rest: seq<V>)
    requires FieldsOf(enc) == fields && FieldsOf(dec) == fields
    requires forall i :: 0 <= i < |fields| ==> fields[i] in value
    ensures RunDecode(dec, RunEncode(enc, value) + rest, start) == Some((Overlay(start, fields, value), rest))
    decreases |fields|
  {
    if |fields| > 0 {
      var input := RunEncode(enc, value) + rest;
      assert input[0] == value[fields[0]];
      assert input[1..] == RunEncode(enc[1..], value) + rest;
      assert FieldsOf(enc[1..]) == fields[1..] && FieldsOf(dec[1..]) == fields[1..];
      DecodeEncoded(fields[1..], enc[1..], dec[1..], value, start[fields[0] := value[fields[0]]], rest);
    }
  }

  /** Overlaying every key of `value` on a map with the same keys gives `value`. */
  lemma OverlayAll<V>(start: map<string, V>, fields: seq<string>, value: map<string, V>)
    requires forall i :: 0 <= i < |fields| ==> fields[i] in value
    requires forall k :: k in value ==> k in fields
    requires start.Keys == value.Keys
    ensures Overlay(start, fields, value) == value
  {
    OverlayContents(start, fields, value);
    var r := Overlay(start, fields, value);
    assert r.Keys == value.Keys;
    assert forall k :: k in r ==> r[k] == value[k];
  }

  /** Round trip of a generated codec: decoding what the generated encoder
      wrote, starting from the default value, gives back the encoded value and
      leaves the following input untouched. This holds because the encoder and
      the decoder visit the same fields in the same order. */
  lemma CodecRoundTrip<V>(name: string, fields: Table<string>, value: map<string, V>, default: map<string, V>, rest: seq<V>)
    requires Ordered(fields)
    requires value.Keys == Keys(fields) && default.Keys == Keys(fields)
    ensures RunDecode(GenerateCodec(name, fields).decode,
                      RunEncode(GenerateCodec(name, fields).encode, value) + rest, default) == Some((value, rest))
  {
    var codec := GenerateCodec(name, fields);
    FieldOrderAgrees(name, fields);
    var names := FieldsOf(codec.encode);
    DecodeEncoded(names, codec.encode, codec.decode, value, default, rest);
    OverlayAll(default, names, value);
  }
}

=== FILE: definitions.dfy ===
/** Packet definitions and the codec resolution in `main` (protocol/build.rs
    lines 13-18 and 192-218): field codecs are mapped to Rust types through the
    codec table, and packets with an unknown codec are dropped. */
module Definitions {
  import opened Results
  import opened OrderedMap
  import Paths

  /** A packet as read from `packets.yaml`: an optional dotted name, a model id
      and its fields (field name to codec name, later to type name). */
  datatype PacketDefinition = PacketDefinition(name: Option<string>, model: int, fields: Table<string>)

  /** `BTreeMap<i32, PacketDefinition>`, as its entries in ascending id order. */
  type PacketTable = seq<(int, PacketDefinition)>

  predicate IdsAscending(defs: PacketTable)
  {
    forall i, j :: 0 <= i < j < |defs| ==> defs[i].0 < defs[j].0
  }

  /** Field maps are ordered, as a `BTreeMap` keeps them. */
  predicate FieldsOrdered(defs: PacketTable)
  {
    forall i :: 0 <= i < |defs| ==> Ordered(defs[i].1.fields)
  }

  predicate KnownCodec(codecs: map<string, string>, codec: string)
  {
    codec in codecs
  }

  /** The loop over one packet's fields (lines 198-209): each field's name is
      converted with `snake` and its codec looked up in `codecs`; a known codec
      inserts `snake(name) -> type` into a new map (a later field with the same
      converted name replaces an earlier one), an unknown codec marks the packet
      as skipped. Fields are visited in key order. */
  function ResolveFields(fields: seq<(string, string)>, codecs: map<string, string>, snake: string -> string)
    : (r: (Table<string>, bool))
    ensures Ordered(r.0)
    ensures r.1 <==> exists i :: 0 <= i < |fields| && !KnownCodec(codecs, fields[i].1)
    decreases |fields|
  {
    if |fields| == 0 then (Empty, false)
    else
      var n := |fields| - 1;
      var (done, skipped) := ResolveFields(fields[..n], codecs, snake);
      var (name, codec) := fields[n];
      if codec in codecs then (Insert(done, snake(name), codecs[codec]), skipped)
      else (done, true)
  }

  /** The converted map has exactly the converted names of the fields whose
      codec is known. */
  lemma {:induction false} ResolvedFieldNames(fields: seq<(string, string)>, codecs: map<string, string>,
                                              snake: string -> string, k: string)
    ensures k in Keys(ResolveFields(fields, codecs, snake).0) <==>
            exists i :: 0 <= i < |fields| && KnownCodec(codecs, fields[i].1) && snake(fields[i].0) == k
    decreases |fields|
  {
    if |fields| > 0 {
      var n := |fields| - 1;
      ResolvedFieldNames(fields[..n], codecs, snake, k);
      if exists i :: 0 <= i < n && KnownCodec(codecs, fields[..n][i].1) && snake(fields[..n][i].0) == k {
        var i :| 0 <= i < n && KnownCodec(codecs, fields[..n][i].1) && snake(fields[..n][i].0) == k;
        assert fields[i] == fields[..n][i];
      }
      if exists i :: 0 <= i < |fields| && KnownCodec(codecs, fields[i].1) && snake(fields[i].0) == k {
        var i :| 0 <= i < |fields| && KnownCodec(codecs, fields[i].1) && snake(fields[i].0) == k;
        if i < n { assert fields[..n][i] == fields[i]; }
      }
    }
  }

  /** Each converted field's type is the codec table's entry for the codec of
      the last field, in key order, that converts to the same name. */
  lemma {:induction false} ResolvedFieldType(fields: seq<(string, string)>, codecs: map<string, string>,
                                             snake: string -> string, i: nat)
    requires i < |fields| && KnownCodec(codecs, fields[i].1)
    requires forall j :: i < j < |fields| && KnownCodec(codecs, fields[j].1) ==> snake(fields[j].0) != snake(fields[i].0)
    ensures Get(ResolveFields(fields, codecs, snake).0, snake(fields[i].0)) == Some(codecs[fields[i].1])
    decreases |fields|
  {
    var n := |fields| - 1;
    ResolveFieldsLast(fields, codecs, snake, snake(fields[i].0));
    if i < n {
      forall j | i < j < n && KnownCodec(codecs, fields[..n][j].1)
        ensures snake(fields[..n][j].0) != snake(fields[..n][i].0) {
        assert fields[..n][j] == fields[j];
      }
      ResolvedFieldType(fields[..n], codecs, snake, i);
      assert fields[..n][i] == fields[i];
    }
  }

  /** The last field visited decides its converted name's entry; every other
      name keeps the entry the earlier fields gave it. */
  lemma ResolveFieldsLast(fields: seq<(string, string)>, codecs: map<string, string>,
                          snake: string -> string, k: string)
    requires |fields| > 0
    ensures var last := fields[|fields| - 1];
            Get(ResolveFields(fields, codecs, snake).0, k) ==
            if KnownCodec(codecs, last.1) && snake(last.0) == k then Some(codecs[last.1])
            else Get(ResolveFields(fields[..|fields| - 1], codecs, snake).0, k)
  {
  }

  /** Every codec of the packet's fields has an entry in the codec table. */
  predicate AllCodecsKnown(fields: Table<string>, codecs: map<string, string>)
  {
    forall i :: 0 <= i < |Entries(fields)| ==> KnownCodec(codecs, Entries(fields)[i].1)
  }

  /** The packet with its fields converted (line 209). */
  function Converted(d: PacketDefinition, codecs: map<string, string>, snake: string -> string): PacketDefinition
  {
    d.(fields := ResolveFields(Entries(d.fields), codecs, snake).0)
  }

  /** The conversion loop (lines 197-210): every packet converted, and the ids of
      the packets with an unknown codec collected. */
  function ConvertAll(defs: PacketTable, codecs: map<string, string>, snake: string -> string)
    : (r: (PacketTable, set<int>))
    ensures |r.0| == |defs|
    ensures forall i :: 0 <= i < |defs| ==> r.0[i] == (defs[i].0, Converted(defs[i].1, codecs, snake))
    ensures forall id :: id in r.1 <==>
              exists i :: 0 <= i < |defs| && defs[i].0 == id && !AllCodecsKnown(defs[i].1.fields, codecs)
  {
    if |defs| == 0 then ([], {})
    else
      var n := |defs| - 1;
      var (done, skipped) := ConvertAll(defs[..n], codecs, snake);
      var (id, d) := defs[n];
      var (fields, unknown) := ResolveFields(Entries(d.fields), codecs, snake);
      SkippedExtends(defs, defs[..n], codecs, skipped, unknown, if unknown then skipped + {id} else skipped);
      ConvertedExtends(defs, defs[..n], codecs, snake, done, done + [(id, Converted(d, codecs, snake))]);
      (done + [(id, d.(fields := fields))], if unknown then skipped + {id} else skipped)
  }

  /** Converting the last packet extends the converted earlier packets. */
  lemma ConvertedExtends(defs: PacketTable, earlier: PacketTable, codecs: map<string, string>,
                         snake: string -> string, done: PacketTable, result: PacketTable)
    requires |defs| > 0 && earlier == defs[..|defs| - 1]
    requires |done| == |earlier|
    requires forall i :: 0 <= i < |earlier| ==> done[i] == (earlier[i].0, Converted(earlier[i].1, codecs, snake))
    requires result == done + [(defs[|defs| - 1].0, Converted(defs[|defs| - 1].1, codecs, snake))]
    ensures |result| == |defs|
    ensures forall i :: 0 <= i < |defs| ==> result[i] == (defs[i].0, Converted(defs[i].1, codecs, snake))
  {
    forall i | 0 <= i < |defs| ensures result[i] == (defs[i].0, Converted(defs[i].1, codecs, snake)) {
      if i < |earlier| { assert result[i] == done[i] && earlier[i] == defs[i]; }
    }
  }

  /** The skipped ids of all packets are those of the earlier packets, plus the
      last packet's id when one of its codecs is unknown. */
  lemma SkippedExtends(defs: PacketTable, earlier: PacketTable, codecs: map<string, string>,
                       skipped: set<int>, unknown: bool, result: set<int>)
    requires |defs| > 0 && earlier == defs[..|defs| - 1]
    requires forall id :: id in skipped <==>
               exists i :: 0 <= i < |earlier| && earlier[i].0 == id && !AllCodecsKnown(earlier[i].1.fields, codecs)
    requires unknown <==> !AllCodecsKnown(defs[|defs| - 1].1.fields, codecs)
    requires result == if unknown then skipped + {defs[|defs| - 1].0} else skipped
    ensures forall id :: id in result <==>
              exists i :: 0 <= i < |defs| && defs[i].0 == id && !AllCodecsKnown(defs[i].1.fields, codecs)
  {
    forall i | 0 <= i < |earlier| ensures earlier[i] == defs[i] { }
  }

  /** `BTreeMap::retain` with the predicate "id not skipped" (line 213). */
  function Retain(defs: PacketTable, skipped: set<int>): (r: PacketTable)
    ensures |r| <= |defs|
    ensures forall i :: 0 <= i < |r| ==> r[i] in defs && r[i].0 !in skipped
    ensures forall i :: 0 <= i < |defs| && defs[i].0 !in skipped ==> defs[i] in r
  {
    if |defs| == 0 then []
    else if defs[0].0 in skipped then Retain(defs[1..], skipped)
    else [defs[0]] + Retain(defs[1..], skipped)
  }

  /** Lines 197-213: convert every packet, then drop the skipped ones. */
  function Resolve(defs: PacketTable, codecs: map<string, string>, snake: string -> string): PacketTable
  {
    var (converted, skipped) := ConvertAll(defs, codecs, snake);
    Retain(converted, skipped)
  }

  /** The packet stored under `id`, if any. */
  function FindId(defs: PacketTable, id: int): Option<PacketDefinition>
  {
    if |defs| == 0 then None
    else if defs[0].0 == id then Some(defs[0].1)
    else FindId(defs[1..], id)
  }

  lemma {:induction false} FindIdIn(defs: PacketTable, id: int, d: PacketDefinition)
    requires IdsAscending(defs)
    ensures FindId(defs, id) == Some(d) <==> (id, d) in defs
    decreases |defs|
  {
    if |defs| > 0 {
      FindIdIn(defs[1..], id, d);
    }
  }

  lemma {:induction false} RetainAscending(defs: PacketTable, skipped: set<int>)
    requires IdsAscending(defs)
    ensures IdsAscending(Retain(defs, skipped))
    decreases |defs|
  {
    if |defs| > 0 {
      RetainAscending(defs[1..], skipped);
      var r := Retain(defs, skipped);
      if defs[0].0 !in skipped {
        forall j | 0 < j < |r| ensures defs[0].0 < r[j].0 {
          assert r[j] in defs[1..];
        }
      }
    }
  }

  /** After resolution a packet is kept exactly when every one of its codecs is
      in the codec table; a kept packet keeps its name and model, and its fields
      are the converted ones. Ids stay in ascending order. */
  lemma ResolveKeeps(defs: PacketTable, codecs: map<string, string>, snake: string -> string, id: int)
    requires IdsAscending(defs)
    ensures IdsAscending(Resolve(defs, codecs, snake))
    ensures FindId(Resolve(defs, codecs, snake), id) ==
            match FindId(defs, id)
            case Some(d) => if AllCodecsKnown(d.fields, codecs) then Some(Converted(d, codecs, snake)) else None
            case None => None
  {
    var (converted, skipped) := ConvertAll(defs, codecs, snake);
    var r := Resolve(defs, codecs, snake);
    assert IdsAscending(converted) by {
      forall i, j | 0 <= i < j < |converted| ensures converted[i].0 < converted[j].0 {
        assert converted[i].0 == defs[i].0 && converted[j].0 == defs[j].0;
      }
    }
    RetainAscending(converted, skipped);
    match FindId(defs, id)
    case None =>
      if FindId(r, id).Some? {
        FindIdIn(r, id, FindId(r, id).value);
        var i :| 0 <= i < |converted| && converted[i] == (id, FindId(r, id).value);
        FindIdIn(defs, id, defs[i].1);
      }
    case Some(d) =>
      FindIdIn(defs, id, d);
      var i :| 0 <= i < |defs| && defs[i] == (id, d);
      if AllCodecsKnown(d.fields, codecs) {
        assert id !in skipped;
        assert converted[i] in r;
        FindIdIn(r, id, Converted(d, codecs, snake));
      } else {
        assert id in skipped;
        if FindId(r, id).Some? {
          FindIdIn(r, id, FindId(r, id).value);
        }
      }
  }

  /** The names given to `group_identifiers`, in id order (lines 215-218):
      unnamed packets are passed over. */
  function NamesOf(defs: PacketTable): (r: seq<string>)
    ensures |r| <= |defs|
    ensures forall i :: 0 <= i < |r| ==> exists j :: 0 <= j < |defs| && defs[j].1.name == Some(r[i])
    ensures forall j :: 0 <= j < |defs| && defs[j].1.name.Some? ==> defs[j].1.name.value in r
  {
    if |defs| == 0 then []
    else
      var n := |defs| - 1;
      assert forall j :: 0 <= j < n ==> defs[..n][j] == defs[j];
      NamesOf(defs[..n]) + (match defs[n].1.name case Some(s) => [s] case None => [])
  }

  /** The names of one packet: its name if it has one. */
  lemma NamesOfSingle(entry: (int, PacketDefinition))
    ensures NamesOf([entry]) == if entry.1.name.Some? then [entry.1.name.value] else []
  {
    assert [entry][..0] == [];
  }

  /** Names are collected table entry by table entry, in table order: together
      with NamesOfSingle this pins `NamesOf` down as the filter of lines 215-216. */
  lemma {:induction false} NamesOfConcat(a: PacketTable, b: PacketTable)
    ensures NamesOf(a + b) == NamesOf(a) + NamesOf(b)
    decreases |b|
  {
    if |b| == 0 {
      assert a + b == a;
    } else {
      var n := |b| - 1;
      var own := match b[n].1.name case Some(s) => [s] case None => [];
      assert (a + b)[..|a + b| - 1] == a + b[..n];
      assert (a + b)[|a + b| - 1] == b[n];
      NamesOfConcat(a, b[..n]);
      assert NamesOf(a + b) == NamesOf(a + b[..n]) + own;
      assert NamesOf(b) == NamesOf(b[..n]) + own;
      assert (NamesOf(a) + NamesOf(b[..n])) + own == NamesOf(a) + (NamesOf(b[..n]) + own);
    }
  }

  /** The names with each `.` rewritten to `::` (line 217). */
  function Identifiers(defs: PacketTable): (r: seq<string>)
    ensures |r| == |NamesOf(defs)|
    ensures forall i :: 0 <= i < |r| ==> r[i] == Paths.ReplaceDots(NamesOf(defs)[i])
  {
    var names := NamesOf(defs);
    seq(|names|, i requires 0 <= i < |names| => Paths.ReplaceDots(names[i]))
  }

  /** `definitions.iter().find(...)` (line 154): the first packet, in id order,
      whose name is `name`; with ascending ids, the one with the smallest id. */
  function FindByName(defs: PacketTable, name: string): (r: Option<(int, PacketDefinition)>)
    ensures r.None? <==> forall i :: 0 <= i < |defs| ==> defs[i].1.name != Some(name)
    ensures r.Some? ==> r.value in defs && r.value.1.name == Some(name)
    ensures r.Some? && IdsAscending(defs) ==>
              forall i :: 0 <= i < |defs| && defs[i].1.name == Some(name) ==> r.value.0 <= defs[i].0
  {
    if |defs| == 0 then None
    else if defs[0].1.name == Some(name) then Some(defs[0])
    else FindByName(defs[1..], name)
  }
}

=== FILE: emit.dfy ===
/** `fmt` (protocol/build.rs lines 134-177): the traversal that writes one Rust
    module per tree node. Its output is modelled as a sequence of items rather
    than text: the opening of a module, one generated packet, the closing of a
    module, each with the indentation depth it is written at. */
module Emit {
  import opened Results
  import opened OrderedMap
  import opened ModuleTree
  import opened Definitions
  import opened Codegen
  import opened Paths

  datatype Item =
    | OpenModule(depth: nat, name: string)
    | PacketItem(depth: nat, id: int, path: string, identifier: string, model: int,
                 decl: StructDecl, codec: CodecImpl)
    | CloseModule(depth: nat)

  /** The dotted names of the packets written, in output order. */
  function PacketPaths(items: seq<Item>): seq<string>
  {
    if |items| == 0 then []
    else (if items[0].PacketItem? then [items[0].path] else []) + PacketPaths(items[1..])
  }

  lemma {:induction false} PacketPathsConcat(a: seq<Item>, b: seq<Item>)
    ensures PacketPaths(a + b) == PacketPaths(a) + PacketPaths(b)
    decreases |a|
  {
    if |a| > 0 {
      PacketPathsConcat(a[1..], b);
      assert (a + b)[0] == a[0] && (a + b)[1..] == a[1..] + b;
      var head := if a[0].PacketItem? then [a[0].path] else [];
      assert PacketPaths(a) == head + PacketPaths(a[1..]);
      assert PacketPaths(a + b) == head + PacketPaths((a + b)[1..]);
      assert head + (PacketPaths(a[1..]) + PacketPaths(b)) == (head + PacketPaths(a[1..])) + PacketPaths(b);
    } else {
      assert a + b == b;
    }
  }

  /** Every name resolves to a packet definition, so the `unwrap` at line 154
      does not panic. */
  predicate AllFound(defs: PacketTable, names: seq<string>)
  {
    forall i :: 0 <= i < |names| ==> FindByName(defs, names[i]).Some?
  }

  lemma AllFoundConcat(defs: PacketTable, a: seq<string>, b: seq<string>)
    ensures AllFound(defs, a + b) <==> AllFound(defs, a) && AllFound(defs, b)
  {
    if AllFound(defs, a) && AllFound(defs, b) {
      forall i | 0 <= i < |a + b| ensures FindByName(defs, (a + b)[i]).Some? {
        if i >= |a| { assert (a + b)[i] == b[i - |a|]; }
      }
    }
    if AllFound(defs, a + b) {
      forall i | 0 <= i < |a| ensures FindByName(defs, a[i]).Some? {
        assert (a + b)[i] == a[i];
      }
      forall i | 0 <= i < |b| ensures FindByName(defs, b[i]).Some? {
        assert (a + b)[i + |a|] == b[i];
      }
    }
  }

  /** Nothing in `items` is written shallower than `depth`, and no packet is
      written at `depth` itself: what the output of modules opened at `depth`
      looks like. */
  predicate Nested(items: seq<Item>, depth: nat)
  {
    forall i :: 0 <= i < |items| ==> items[i].depth >= depth && (items[i].PacketItem? ==> items[i].depth > depth)
  }

  /** The packets of one module's own identifiers (lines 152-169): each rebuilt
      name is looked up, and the packet's struct and codec are generated from
      the definition found. A name that is not found is the panic at line 154. */
  function EmitPackets(defs: PacketTable, identifiers: seq<string>, depth: nat, prefix: string)
    : (r: Result<seq<Item>, string>)
    requires FieldsOrdered(defs)
    ensures r.Success? <==> AllFound(defs, PrefixAll(prefix, identifiers))
    ensures r.Success? ==> |r.value| == |identifiers|
    ensures r.Success? ==> forall i :: 0 <= i < |r.value| ==>
              && r.value[i].PacketItem? && r.value[i].depth == depth
              && r.value[i].path == prefix + identifiers[i] && r.value[i].identifier == identifiers[i]
              && FindByName(defs, r.value[i].path) == Some((r.value[i].id, DefinitionOf(defs, r.value[i].path)))
    ensures r.Success? ==> PacketPaths(r.value) == PrefixAll(prefix, identifiers)
    ensures r.Success? ==> PacketsGenerated(defs, r.value)
  {
    if |identifiers| == 0 then Success([])
    else
      var path := prefix + identifiers[0];
      match FindByName(defs, path)
      case None => Failure(path)
      case Some((id, d)) =>
        assert Ordered(d.fields);
        var item := PacketItem(depth, id, path, identifiers[0], d.model,
                               GenerateStruct(identifiers[0], d.fields), GenerateCodec(identifiers[0], d.fields));
        match EmitPackets(defs, identifiers[1..], depth, prefix)
        case Failure(e) => Failure(e)
        case Success(rest) =>
          PrependPacket(defs, identifiers, depth, prefix, item, rest);
          assert DefinitionOf(defs, path) == d;
          GeneratedConcat(defs, [item], rest);
          Success([item] + rest)
  }

  /** Every packet written carries the id and model id of the packet `find`
      returns for its name (line 154), and the struct and codec generated from
      that definition's fields under the packet's identifier (lines 163-165). */
  predicate PacketsGenerated(defs: PacketTable, items: seq<Item>)
    requires FieldsOrdered(defs)
  {
    forall i :: 0 <= i < |items| && items[i].PacketItem? ==>
      && FindByName(defs, items[i].path) == Some((items[i].id, DefinitionOf(defs, items[i].path)))
      && items[i].model == DefinitionOf(defs, items[i].path).model
      && items[i].decl == GenerateStruct(items[i].identifier, DefinitionOf(defs, items[i].path).fields)
      && items[i].codec == GenerateCodec(items[i].identifier, DefinitionOf(defs, items[i].path).fields)
  }

  lemma GeneratedConcat(defs: PacketTable, a: seq<Item>, b: seq<Item>)
    requires FieldsOrdered(defs)
    requires PacketsGenerated(defs, a) && PacketsGenerated(defs, b)
    ensures PacketsGenerated(defs, a + b)
  {
    forall i | 0 <= i < |a + b| && (a + b)[i].PacketItem?
      ensures && FindByName(defs, (a + b)[i].path) == Some(((a + b)[i].id, DefinitionOf(defs, (a + b)[i].path)))
              && (a + b)[i].model == DefinitionOf(defs, (a + b)[i].path).model
              && (a + b)[i].decl == GenerateStruct((a + b)[i].identifier, DefinitionOf(defs, (a + b)[i].path).fields)
              && (a + b)[i].codec == GenerateCodec((a + b)[i].identifier, DefinitionOf(defs, (a + b)[i].path).fields)
    {
      if i < |a| { assert (a + b)[i] == a[i]; } else { assert (a + b)[i] == b[i - |a|]; }
    }
  }

  /** One more packet in front of the packets of the remaining identifiers. */
  lemma PrependPacket(defs: PacketTable, identifiers: seq<string>, depth: nat, prefix: string,
                      item: Item, rest: seq<Item>)
    requires |identifiers| > 0
    requires item.PacketItem? && item.depth == depth
    requires item.path == prefix + identifiers[0] && item.identifier == identifiers[0]
    requires FindByName(defs, item.path) == Some((item.id, DefinitionOf(defs, item.path)))
    requires |rest| == |identifiers| - 1
    requires forall i :: 0 <= i < |rest| ==>
               && rest[i].PacketItem? && rest[i].depth == depth
               && rest[i].path == prefix + identifiers[1..][i] && rest[i].identifier == identifiers[1..][i]
               && FindByName(defs, rest[i].path) == Some((rest[i].id, DefinitionOf(defs, rest[i].path)))
    requires PacketPaths(rest) == PrefixAll(prefix, identifiers[1..])
    ensures var r := [item] + rest;
            && |r| == |identifiers|
            && (forall i :: 0 <= i < |r| ==>
                  && r[i].PacketItem? && r[i].depth == depth
                  && r[i].path == prefix + identifiers[i] && r[i].identifier == identifiers[i]
                  && FindByName(defs, r[i].path) == Some((r[i].id, DefinitionOf(defs, r[i].path))))
            && PacketPaths(r) == PrefixAll(prefix, identifiers)
  {
    var r := [item] + rest;
    assert r[1..] == rest;
    assert PacketPaths(r) == [item.path] + PacketPaths(rest);
    forall i | 0 <= i < |r|
      ensures && r[i].PacketItem? && r[i].depth == depth
              && r[i].path == prefix + identifiers[i] && r[i].identifier == identifiers[i]
              && FindByName(defs, r[i].path) == Some((r[i].id, DefinitionOf(defs, r[i].path)))
    {
      if i > 0 { assert r[i] == rest[i - 1] && identifiers[1..][i - 1] == identifiers[i]; }
    }
  }

  /** The definition `find` returns for `path`. */
  function DefinitionOf(defs: PacketTable, path: string): (d: PacketDefinition)
    ensures FieldsOrdered(defs) ==> Ordered(d.fields)
  {
    match FindByName(defs, path)
    case Some((_, d)) => d
    case None => PacketDefinition(None, 0, Empty)
  }

  /** `fmt` for module `m` at `depth`, whose path `fmt` spells as `prefix`: the
      module is opened, its children are written in key order one level deeper,
      then its own packets, and the module is closed. */
  function EmitModule(defs: PacketTable, m: Module, depth: nat, prefix: string): (r: Result<seq<Item>, string>)
    requires FieldsOrdered(defs)
    ensures r.Success? <==> AllFound(defs, LeafNames(m, prefix))
    ensures r.Success? ==> PacketPaths(r.value) == LeafNames(m, prefix)
    ensures r.Success? ==> ModuleShape(r.value, depth, m.name, m.identifiers)
    ensures r.Success? ==> PacketsGenerated(defs, r.value)
    ensures r.Success? ==> OpenedAt(r.value, depth) == [m.name] && OpenedAt(r.value, depth + 1) == ChildNames(m.children)
    decreases m
  {
    AllFoundConcat(defs, ChildLeafNames(m.children, prefix), PrefixAll(prefix, m.identifiers));
    match EmitChildren(defs, m.children, depth + 1, prefix)
    case Failure(e) => Failure(e)
    case Success(kids) =>
      match EmitPackets(defs, m.identifiers, depth + 1, prefix)
      case Failure(e) => Failure(e)
      case Success(own) =>
        var items := [OpenModule(depth, m.name)] + kids + own + [CloseModule(depth)];
        AssembledModule(m, depth, kids, own, items);
        AssembledGenerated(defs, [OpenModule(depth, m.name)], kids, own, [CloseModule(depth)]);
        AssembledOpened(m.name, depth, kids, own, ChildNames(m.children));
        Success(items)
  }

  /** The shape of one module's output, given the shapes of its children's
      output and of its own packets. */
  lemma AssembledModule(m: Module, depth: nat, kids: seq<Item>, own: seq<Item>, items: seq<Item>)
    requires Nested(kids, depth + 1)
    requires |own| == |m.identifiers|
    requires forall i :: 0 <= i < |own| ==>
               own[i].PacketItem? && own[i].depth == depth + 1 && own[i].identifier == m.identifiers[i]
    requires items == [OpenModule(depth, m.name)] + kids + own + [CloseModule(depth)]
    ensures PacketPaths(items) == PacketPaths(kids) + PacketPaths(own)
    ensures ModuleShape(items, depth, m.name, m.identifiers)
  {
    var open := [OpenModule(depth, m.name)];
    var close := [CloseModule(depth)];
    AssembledPaths(open, kids, own, close);
    AssembledDepths(open, kids, own, close, depth);
    AssembledOwn(open, kids, own, close, m.identifiers, depth);
  }

  /** What one module's output looks like: it opens the module at `depth`,
      writes everything in between deeper, ends with the module's own packets
      in identifier order preceded by its children's output, and closes the
      module at `depth`. */
  predicate ModuleShape(items: seq<Item>, depth: nat, name: string, identifiers: seq<string>)
  {
    && |items| >= 2 + |identifiers|
    && items[0] == OpenModule(depth, name) && items[|items| - 1] == CloseModule(depth)
    && (forall i :: 0 < i < |items| - 1 ==> items[i].depth > depth)
    && Nested(items[1..|items| - 1 - |identifiers|], depth + 1)
    && forall i :: |items| - 1 - |identifiers| <= i < |items| - 1 ==>
         && items[i].PacketItem? && items[i].depth == depth + 1
         && items[i].identifier == identifiers[i - (|items| - 1 - |identifiers|)]
  }

  lemma AssembledDepths(open: seq<Item>, kids: seq<Item>, own: seq<Item>, close: seq<Item>, depth: nat)
    requires |open| == 1 && |close| == 1
    requires Nested(kids, depth + 1)
    requires forall i :: 0 <= i < |own| ==> own[i].depth == depth + 1
    ensures var items := open + kids + own + close;
            forall i :: 0 < i < |items| - 1 ==> items[i].depth > depth
  {
    var items := open + kids + own + close;
    forall i | 0 < i < |items| - 1 ensures items[i].depth > depth {
      if i <= |kids| { assert items[i] == kids[i - 1]; } else { assert items[i] == own[i - 1 - |kids|]; }
    }
  }

  lemma AssembledOwn(open: seq<Item>, kids: seq<Item>, own: seq<Item>, close: seq<Item>,
                     identifiers: seq<string>, depth: nat)
    requires |open| == 1 && |close| == 1
    requires Nested(kids, depth + 1)
    requires |own| == |identifiers|
    requires forall i :: 0 <= i < |own| ==>
               own[i].PacketItem? && own[i].depth == depth + 1 && own[i].identifier == identifiers[i]
    ensures var items := open + kids + own + close;
            && Nested(items[1..|items| - 1 - |identifiers|], depth + 1)
            && forall i :: |items| - 1 - |identifiers| <= i < |items| - 1 ==>
                 && items[i].PacketItem? && items[i].depth == depth + 1
                 && items[i].identifier == identifiers[i - (|items| - 1 - |identifiers|)]
  {
    var items := open + kids + own + close;
    var start := |items| - 1 - |identifiers|;
    assert start == 1 + |kids|;
    assert items[1..start] == kids;
    forall i | start <= i < |items| - 1 ensures items[i] == own[i - start] {
    }
  }

  lemma AssembledGenerated(defs: PacketTable, open: seq<Item>, kids: seq<Item>, own: seq<Item>, close: seq<Item>)
    requires FieldsOrdered(defs)
    requires |open| == 1 && !open[0].PacketItem? && |close| == 1 && !close[0].PacketItem?
    requires PacketsGenerated(defs, kids) && PacketsGenerated(defs, own)
    ensures PacketsGenerated(defs, open + kids + own + close)
  {
    GeneratedConcat(defs, open, kids);
    GeneratedConcat(defs, open + kids, own);
    GeneratedConcat(defs, open + kids + own, close);
  }

  lemma AssembledPaths(open: seq<Item>, kids: seq<Item>, own: seq<Item>, close: seq<Item>)
    requires PacketPaths(open) == [] && PacketPaths(close) == []
    ensures PacketPaths(open + kids + own + close) == PacketPaths(kids) + PacketPaths(own)
  {
    PacketPathsConcat(open, kids);
    PacketPathsConcat(open + kids, own);
    PacketPathsConcat(open + kids + own, close);
  }

  /** The loop over the children (lines 147-150), in key order. */
  function EmitChildren(defs: PacketTable, cs: Table<Module>, depth: nat, prefix: string)
    : (r: Result<seq<Item>, string>)
    requires FieldsOrdered(defs)
    ensures r.Success? <==> AllFound(defs, ChildLeafNames(cs, prefix))
    ensures r.Success? ==> PacketPaths(r.value) == ChildLeafNames(cs, prefix)
    ensures r.Success? ==> Nested(r.value, depth)
    ensures r.Success? ==> PacketsGenerated(defs, r.value)
    ensures r.Success? ==> OpenedAt(r.value, depth) == ChildNames(cs)
    decreases cs
  {
    match cs
    case Empty => Success([])
    case Node(_, c, rest) =>
      var childPrefix := prefix + c.name + ".";
      AllFoundConcat(defs, LeafNames(c, childPrefix), ChildLeafNames(rest, prefix));
      match EmitModule(defs, c, depth, childPrefix)
      case Failure(e) => Failure(e)
      case Success(first) =>
        match EmitChildren(defs, rest, depth, prefix)
        case Failure(e) => Failure(e)
        case Success(others) =>
          PacketPathsConcat(first, others);
          ModuleNested(first, depth);
          NestedConcat(first, others, depth);
          GeneratedConcat(defs, first, others);
          OpenedAtConcat(first, others, depth);
          Success(first + others)
  }

  /** The output of one module opened at `depth` is nested at `depth`. */
  lemma ModuleNested(items: seq<Item>, depth: nat)
    requires |items| >= 2 && items[0].OpenModule? && items[0].depth == depth
    requires items[|items| - 1] == CloseModule(depth)
    requires forall i :: 0 < i < |items| - 1 ==> items[i].depth > depth
    ensures Nested(items, depth)
  {
  }

  lemma NestedConcat(a: seq<Item>, b: seq<Item>, depth: nat)
    requires Nested(a, depth) && Nested(b, depth)
    ensures Nested(a + b, depth)
  {
    forall i | 0 <= i < |a + b| ensures (a + b)[i].depth >= depth && ((a + b)[i].PacketItem? ==> (a + b)[i].depth > depth) {
      if i < |a| { assert (a + b)[i] == a[i]; } else { assert (a + b)[i] == b[i - |a|]; }
    }
  }

  /** The names of the modules opened at exactly `depth`, in output order. */
  function OpenedAt(items: seq<Item>, depth: nat): seq<string>
  {
    if |items| == 0 then []
    else (if items[0].OpenModule? && items[0].depth == depth then [items[0].name] else []) + OpenedAt(items[1..], depth)
  }

  lemma {:induction false} OpenedAtConcat(a: seq<Item>, b: seq<Item>, depth: nat)
    ensures OpenedAt(a + b, depth) == OpenedAt(a, depth) + OpenedAt(b, depth)
    decreases |a|
  {
    if |a| > 0 {
      OpenedAtConcat(a[1..], b, depth);
      assert (a + b)[0] == a[0] && (a + b)[1..] == a[1..] + b;
      var head := if a[0].OpenModule? && a[0].depth == depth then [a[0].name] else [];
      assert OpenedAt(a, depth) == head + OpenedAt(a[1..], depth);
      assert OpenedAt(a + b, depth) == head + OpenedAt((a + b)[1..], depth);
      Associate(head, OpenedAt(a[1..], depth), OpenedAt(b, depth));
    } else {
      assert a + b == b;
    }
  }

  lemma {:induction false} OpenedAtNone(items: seq<Item>, depth: nat)
    requires forall i :: 0 <= i < |items| ==> items[i].OpenModule? ==> items[i].depth != depth
    ensures OpenedAt(items, depth) == []
    decreases |items|
  {
    if |items| > 0 {
      OpenedAtNone(items[1..], depth);
    }
  }

  /** A module opens itself at its own depth, and at the next depth exactly the
      modules its children's output opens there. */
  lemma AssembledOpened(name: string, depth: nat, kids: seq<Item>, own: seq<Item>, children: seq<string>)
    requires Nested(kids, depth + 1) && OpenedAt(kids, depth + 1) == children
    requires forall i :: 0 <= i < |own| ==> own[i].PacketItem?
    ensures var items := [OpenModule(depth, name)] + kids + own + [CloseModule(depth)];
            OpenedAt(items, depth) == [name] && OpenedAt(items, depth + 1) == children
  {
    var open := [OpenModule(depth, name)];
    var close := [CloseModule(depth)];
    OpenedAtConcat(open, kids, depth);
    OpenedAtConcat(open + kids, own, depth);
    OpenedAtConcat(open + kids + own, close, depth);
    OpenedAtConcat(open, kids, depth + 1);
    OpenedAtConcat(open + kids, own, depth + 1);
    OpenedAtConcat(open + kids + own, close, depth + 1);
    OpenedAtNone(kids, depth);
    OpenedAtNone(own, depth);
    OpenedAtNone(own, depth + 1);
    assert OpenedAt(open, depth) == [name] && OpenedAt(open, depth + 1) == [];
    assert OpenedAt(close, depth) == [] && OpenedAt(close, depth + 1) == [];
  }

  /** The names of the modules still open after reading `items`, starting from
      the modules `outer` already open: an opening pushes the module's name and
      a closing pops the innermost one, as `path` does at lines 148 and 174. */
  function Enclosing(items: seq<Item>, outer: seq<string>): seq<string>
    decreases |items|
  {
    if |items| == 0 then outer
    else
      var next := match items[0]
        case OpenModule(_, name) => outer + [name]
        case CloseModule(_) => if |outer| == 0 then outer else outer[..|outer| - 1]
        case PacketItem(_, _, _, _, _, _, _) => outer;
      Enclosing(items[1..], next)
  }

  lemma {:induction false} EnclosingConcat(a: seq<Item>, b: seq<Item>, outer: seq<string>)
    ensures Enclosing(a + b, outer) == Enclosing(b, Enclosing(a, outer))
    decreases |a|
  {
    if |a| > 0 {
      assert (a + b)[0] == a[0] && (a + b)[1..] == a[1..] + b;
      var next := match a[0]
        case OpenModule(_, name) => outer + [name]
        case CloseModule(_) => if |outer| == 0 then outer else outer[..|outer| - 1]
        case PacketItem(_, _, _, _, _, _, _) => outer;
      EnclosingConcat(a[1..], b, next);
    } else {
      assert a + b == b;
    }
  }

  lemma {:induction false} EnclosingPackets(items: seq<Item>, outer: seq<string>)
    requires forall i :: 0 <= i < |items| ==> items[i].PacketItem?
    ensures Enclosing(items, outer) == outer
    decreases |items|
  {
    if |items| > 0 {
      EnclosingPackets(items[1..], outer);
    }
  }

  /** A packet read with the modules `open` around it sits in module `name`,
      opened on top of `outer`, and below it inside exactly the modules its
      dotted path spells after `prefix`. It is indented one level deeper per
      module opened since `outer`. */
  predicate InModule(item: Item, open: seq<string>, outer: seq<string>, depth: nat, name: string, prefix: string)
    requires item.PacketItem?
  {
    && |open| > |outer| && open[..|outer|] == outer && open[|outer|] == name
    && item.path == prefix + PathPrefix(open[|outer| + 1..]) + item.identifier
    && item.depth == depth + |open| - |outer|
  }

  /** The same for a packet of a module's children: it sits inside exactly the
      modules its dotted path spells after `prefix`. */
  predicate InChildren(item: Item, open: seq<string>, outer: seq<string>, depth: nat, prefix: string)
    requires item.PacketItem?
  {
    && |open| > |outer| && open[..|outer|] == outer
    && item.path == prefix + PathPrefix(open[|outer|..]) + item.identifier
    && item.depth == depth + |open| - |outer|
  }

  /** Every packet of one module's output, read with `outer` already open, is
      placed in that module as `InModule` says. */
  predicate ModulePlaced(items: seq<Item>, outer: seq<string>, depth: nat, name: string, prefix: string)
  {
    forall i :: 0 <= i < |items| && items[i].PacketItem? ==>
      InModule(items[i], Enclosing(items[..i], outer), outer, depth, name, prefix)
  }

  /** Every packet of the children's output is placed as `InChildren` says. */
  predicate ChildrenPlaced(items: seq<Item>, outer: seq<string>, depth: nat, prefix: string)
  {
    forall i :: 0 <= i < |items| && items[i].PacketItem? ==>
      InChildren(items[i], Enclosing(items[..i], outer), outer, depth, prefix)
  }

  /** `fmt` closes every module it opens, and writes each packet inside the
      modules its name spells: the module itself (line 141), then one module per
      child it recursed into (lines 147-150), so the struct declared at line 164
      lives at the path its dotted name gives. This holds whatever modules are
      already open around the output. */
  lemma ModulePlacement(defs: PacketTable, m: Module, depth: nat, prefix: string, outer: seq<string>)
    requires FieldsOrdered(defs)
    requires EmitModule(defs, m, depth, prefix).Success?
    ensures Enclosing(EmitModule(defs, m, depth, prefix).value, outer) == outer
    ensures ModulePlaced(EmitModule(defs, m, depth, prefix).value, outer, depth, m.name, prefix)
    decreases m
  {
    var kids := EmitChildren(defs, m.children, depth + 1, prefix).value;
    var own := EmitPackets(defs, m.identifiers, depth + 1, prefix).value;
    assert EmitModule(defs, m, depth, prefix).value == [OpenModule(depth, m.name)] + kids + own + [CloseModule(depth)];
    ChildrenPlacement(defs, m.children, depth + 1, prefix, outer + [m.name]);
    AssembledPlacement(kids, own, outer, depth, m.name, prefix);
  }

  /** The children's output closes what it opens and places every packet under
      the path its name spells. */
  lemma ChildrenPlacement(defs: PacketTable, cs: Table<Module>, depth: nat, prefix: string, outer: seq<string>)
    requires FieldsOrdered(defs)
    requires EmitChildren(defs, cs, depth, prefix).Success?
    ensures Enclosing(EmitChildren(defs, cs, depth, prefix).value, outer) == outer
    ensures ChildrenPlaced(EmitChildren(defs, cs, depth, prefix).value, outer, depth, prefix)
    decreases cs
  {
    match cs
    case Empty =>
    case Node(_, c, rest) =>
      var childPrefix := prefix + c.name + ".";
      var first := EmitModule(defs, c, depth, childPrefix).value;
      var others := EmitChildren(defs, rest, depth, prefix).value;
      assert EmitChildren(defs, cs, depth, prefix).value == first + others;
      ModulePlacement(defs, c, depth, childPrefix, outer);
      ChildrenPlacement(defs, rest, depth, prefix, outer);
      ConcatPlacement(first, others, outer, depth, c.name, prefix);
  }

  lemma AssembledPlacement(kids: seq<Item>, own: seq<Item>, outer: seq<string>, depth: nat, name: string, prefix: string)
    requires Enclosing(kids, outer + [name]) == outer + [name]
    requires ChildrenPlaced(kids, outer + [name], depth + 1, prefix)
    requires forall i :: 0 <= i < |own| ==>
               own[i].PacketItem? && own[i].depth == depth + 1 && own[i].path == prefix + own[i].identifier
    ensures var items := [OpenModule(depth, name)] + kids + own + [CloseModule(depth)];
            Enclosing(items, outer) == outer && ModulePlaced(items, outer, depth, name, prefix)
  {
    var open := [OpenModule(depth, name)];
    var body := open + kids + own;
    var items := body + [CloseModule(depth)];
    assert Enclosing(open, outer) == outer + [name];
    EnclosingPackets(own, outer + [name]);
    EnclosingConcat(open, kids, outer);
    EnclosingConcat(open + kids, own, outer);
    EnclosingConcat(body, [CloseModule(depth)], outer);
    forall i | 0 <= i < |items| && items[i].PacketItem?
      ensures InModule(items[i], Enclosing(items[..i], outer), outer, depth, name, prefix)
    {
      TakeLeft(body, [CloseModule(depth)], i);
      if i <= |kids| {
        var j := i - 1;
        TakeLeft(open + kids, own, i);
        TakeRight(open, kids, i);
        assert items[i] == kids[j];
        EnclosingConcat(open, kids[..j], outer);
        KidAt(kids[j], Enclosing(kids[..j], outer + [name]), outer, depth, name, prefix);
      } else {
        var j := i - 1 - |kids|;
        TakeRight(open + kids, own, i);
        assert items[i] == own[j];
        EnclosingConcat(open + kids, own[..j], outer);
        EnclosingPackets(own[..j], outer + [name]);
        OwnAt(own[j], outer, depth, name, prefix);
      }
    }
  }

  /** A packet of a child, seen from the parent. */
  lemma KidAt(item: Item, open: seq<string>, outer: seq<string>, depth: nat, name: string, prefix: string)
    requires item.PacketItem? && InChildren(item, open, outer + [name], depth + 1, prefix)
    ensures InModule(item, open, outer, depth, name, prefix)
  {
    assert open[..|outer|] == open[..|outer| + 1][..|outer|];
  }

  /** One of the module's own packets, written right inside it. */
  lemma OwnAt(item: Item, outer: seq<string>, depth: nat, name: string, prefix: string)
    requires item.PacketItem? && item.depth == depth + 1 && item.path == prefix + item.identifier
    ensures InModule(item, outer + [name], outer, depth, name, prefix)
  {
    assert (outer + [name])[|outer| + 1..] == [];
    assert prefix + PathPrefix([]) + item.identifier == prefix + item.identifier;
  }

  lemma ConcatPlacement(first: seq<Item>, others: seq<Item>, outer: seq<string>, depth: nat, name: string, prefix: string)
    requires Enclosing(first, outer) == outer && ModulePlaced(first, outer, depth, name, prefix + name + ".")
    requires Enclosing(others, outer) == outer && ChildrenPlaced(others, outer, depth, prefix)
    ensures Enclosing(first + others, outer) == outer && ChildrenPlaced(first + others, outer, depth, prefix)
  {
    EnclosingConcat(first, others, outer);
    var items := first + others;
    forall i | 0 <= i < |items| && items[i].PacketItem?
      ensures InChildren(items[i], Enclosing(items[..i], outer), outer, depth, prefix)
    {
      if i < |first| {
        TakeLeft(first, others, i);
        assert items[i] == first[i];
        FirstAt(first[i], Enclosing(first[..i], outer), outer, depth, name, prefix);
      } else {
        var j := i - |first|;
        TakeRight(first, others, i);
        assert items[i] == others[j];
        EnclosingConcat(first, others[..j], outer);
      }
    }
  }

  /** A packet of the first child, seen among all the children. */
  lemma FirstAt(item: Item, open: seq<string>, outer: seq<string>, depth: nat, name: string, prefix: string)
    requires item.PacketItem? && InModule(item, open, outer, depth, name, prefix + name + ".")
    ensures InChildren(item, open, outer, depth, prefix)
  {
    var below := open[|outer| + 1..];
    assert open[|outer|..] == [name] + below;
    assert PathPrefix([name] + below) == name + "." + PathPrefix(below) by {
      assert ([name] + below)[1..] == below;
    }
    Associate(prefix, name + ".", PathPrefix(below));
  }
}

=== FILE: indent.dfy ===
/** `indent` (protocol/build.rs lines 122-132): every line of a string, as
    `str::lines` yields it, prefixed with two spaces per level and terminated by
    a newline. */
module Indent {

  /** The position of the first newline, or `|s|` when there is none. */
  function NewlineIndex(s: string): (i: nat)
    ensures i <= |s|
    ensures forall j :: 0 <= j < i ==> s[j] != '\n'
    ensures i < |s| ==> s[i] == '\n'
  {
    if |s| == 0 || s[0] == '\n' then 0 else 1 + NewlineIndex(s[1..])
  }

  predicate EndsWithCR(line: string)
  {
    |line| > 0 && line[|line| - 1] == '\r'
  }

  /** Drops one trailing carriage return, as `str::lines` does for `\r\n`. */
  function StripCR(line: string): string
  {
    if EndsWithCR(line) then line[..|line| - 1] else line
  }

  predicate NoNewline(line: string)
  {
    forall j :: 0 <= j < |line| ==> line[j] != '\n'
  }

  /** `str::lines`: the pieces between newlines. A piece ended by `\n` loses a
      `\r` before it; a final piece without `\n` is kept as it is; a trailing
      newline does not start another, empty, line. */
  function Lines(s: string): (ls: seq<string>)
    ensures forall i :: 0 <= i < |ls| ==> NoNewline(ls[i])
    decreases |s|
  {
    if |s| == 0 then []
    else
      var i := NewlineIndex(s);
      if i == |s| then [s] else [StripCR(s[..i])] + Lines(s[i + 1..])
  }

  /** `"  ".repeat(depth)`. */
  function Pad(depth: nat): (r: string)
    ensures |r| == 2 * depth
    ensures forall j :: 0 <= j < |r| ==> r[j] == ' '
  {
    if depth == 0 then "" else "  " + Pad(depth - 1)
  }

  function IndentLines(lines: seq<string>, pad: string): string
  {
    if |lines| == 0 then "" else pad + lines[0] + "\n" + IndentLines(lines[1..], pad)
  }

  function Indent(s: string, depth: nat): string
  {
    IndentLines(Lines(s), Pad(depth))
  }

  /** The output length the loop reserves for: each line plus its padding and
      its newline. */
  function TotalLength(lines: seq<string>, width: nat): nat
  {
    if |lines| == 0 then 0 else |lines[0]| + width + 1 + TotalLength(lines[1..], width)
  }

  lemma {:induction false} IndentLinesLength(lines: seq<string>, pad: string)
    ensures |IndentLines(lines, pad)| == TotalLength(lines, |pad|)
    decreases |lines|
  {
    if |lines| > 0 {
      IndentLinesLength(lines[1..], pad);
    }
  }

  /** The indented text is as long as the lines plus `2 * depth + 1` characters
      for each line. */
  lemma IndentLength(s: string, depth: nat)
    ensures |Indent(s, depth)| == TotalLength(Lines(s), 2 * depth)
  {
    IndentLinesLength(Lines(s), Pad(depth));
  }

  lemma LinesOfTerminatedLine(line: string, rest: string)
    requires NoNewline(line)
    ensures Lines(line + "\n" + rest) == [StripCR(line)] + Lines(rest)
  {
    var s := line + "\n" + rest;
    NewlineIndexOf(line, rest);
    assert s[..|line|] == line && s[|line| + 1..] == rest;
  }

  lemma {:induction false} NewlineIndexOf(line: string, rest: string)
    requires NoNewline(line)
    ensures NewlineIndex(line + "\n" + rest) == |line|
    decreases |line|
  {
    if |line| > 0 {
      NewlineIndexOf(line[1..], rest);
      assert (line + "\n" + rest)[1..] == line[1..] + "\n" + rest;
    }
  }

  /** Splitting indented text into lines again gives one line per input line:
      the padding followed by the input line (less a carriage return left at its
      end, which `str::lines` would take off the re-split line). */
  lemma {:induction false} LinesOfIndentLines(lines: seq<string>, pad: string)
    requires NoNewline(pad)
    requires forall i :: 0 <= i < |lines| ==> NoNewline(lines[i])
    ensures Lines(IndentLines(lines, pad)) == seq(|lines|, i requires 0 <= i < |lines| => StripCR(pad + lines[i]))
    decreases |lines|
  {
    if |lines| > 0 {
      LinesOfIndentLines(lines[1..], pad);
      var line := pad + lines[0];
      assert NoNewline(line);
      LinesOfTerminatedLine(line, IndentLines(lines[1..], pad));
      assert pad + lines[0] + "\n" + IndentLines(lines[1..], pad) == line + "\n" + IndentLines(lines[1..], pad);
    }
  }

  /** Splitting `indent`'s output into lines gives exactly one line per input
      line, the padding followed by that line. */
  lemma ReSplitIndented(s: string, depth: nat)
    ensures Lines(Indent(s, depth)) == seq(|Lines(s)|, i requires 0 <= i < |Lines(s)| => StripCR(Pad(depth) + Lines(s)[i]))
    ensures |Lines(Indent(s, depth))| == |Lines(s)|
  {
    LinesOfIndentLines(Lines(s), Pad(depth));
  }

  /** A final line without `\n` keeps its `\r` in `str::lines`, so the
      re-split output of `indent` loses it: `x\r` comes back as `  x`. */
  lemma ReSplitCarriageReturn()
    ensures Lines("x\r") == ["x\r"]
    ensures Lines(Indent("x\r", 1)) == ["  x"]
  {
    assert NewlineIndex("x\r") == 2 by {
      assert "x\r"[1..] == "\r" && "\r"[1..] == "";
    }
    ReSplitIndented("x\r", 1);
    var line := Pad(1) + "x\r";
    assert line == "  x\r" && EndsWithCR(line);
    assert StripCR(line) == "  x";
    assert Lines(Indent("x\r", 1))[0] == StripCR(line);
  }

  predicate NoTrailingCR(lines: seq<string>)
  {
    forall i :: 0 <= i < |lines| ==> !EndsWithCR(lines[i])
  }

  lemma {:induction false} IndentLinesAgain(lines: seq<string>, a: nat, b: nat)
    requires NoTrailingCR(lines)
    requires forall i :: 0 <= i < |lines| ==> NoNewline(lines[i])
    ensures IndentLines(Lines(IndentLines(lines, Pad(a))), Pad(b)) == IndentLines(lines, Pad(a + b))
  {
    var padded := seq(|lines|, i requires 0 <= i < |lines| => Pad(a) + lines[i]);
    ReSplitPadded(lines, a);
    PadAdds(b, a);
    ConcatPads(padded, lines, Pad(a), Pad(b));
  }

  /** Splitting indented `\r`-free lines again gives the padded lines. */
  lemma ReSplitPadded(lines: seq<string>, a: nat)
    requires NoTrailingCR(lines)
    requires forall i :: 0 <= i < |lines| ==> NoNewline(lines[i])
    ensures Lines(IndentLines(lines, Pad(a))) == seq(|lines|, i requires 0 <= i < |lines| => Pad(a) + lines[i])
  {
    LinesOfIndentLines(lines, Pad(a));
    PaddedKeepsEnd(lines, a);
  }

  /** Padding a line without a trailing `\r` does not give it one. */
  lemma PaddedKeepsEnd(lines: seq<string>, a: nat)
    requires NoTrailingCR(lines)
    ensures forall i :: 0 <= i < |lines| ==> StripCR(Pad(a) + lines[i]) == Pad(a) + lines[i]
  {
    forall i | 0 <= i < |lines| ensures StripCR(Pad(a) + lines[i]) == Pad(a) + lines[i] {
      if |lines[i]| == 0 {
        assert !EndsWithCR(Pad(a) + lines[i]) by { PadEndsWithSpace(a); }
      } else {
        assert (Pad(a) + lines[i])[|Pad(a) + lines[i]| - 1] == lines[i][|lines[i]| - 1];
      }
    }
  }

  lemma PadEndsWithSpace(a: nat)
    ensures !EndsWithCR(Pad(a))
  {
  }

  lemma {:induction false} PadAdds(b: nat, a: nat)
    ensures Pad(b) + Pad(a) == Pad(a + b)
    decreases b
  {
    if b > 0 {
      PadAdds(b - 1, a);
      assert Pad(a + b) == "  " + Pad(a + b - 1);
    }
  }

  lemma {:induction false} ConcatPads(padded: seq<string>, lines: seq<string>, inner: string, outer: string)
    requires |padded| == |lines|
    requires forall i :: 0 <= i < |lines| ==> padded[i] == inner + lines[i]
    ensures IndentLines(padded, outer) == IndentLines(lines, outer + inner)
    decreases |lines|
  {
    if |lines| > 0 {
      ConcatPads(padded[1..], lines[1..], inner, outer);
      assert outer + padded[0] == outer + inner + lines[0];
    }
  }

  /** Indenting twice is indenting once by the sum of the depths, provided no
      line of the input ends in a carriage return. */
  lemma IndentTwice(s: string, a: nat, b: nat)
    requires NoTrailingCR(Lines(s))
    ensures Indent(Indent(s, a), b) == Indent(s, a + b)
  {
    IndentLinesAgain(Lines(s), a, b);
  }
}

=== FILE: module_tree.dfy ===
/** `Module` and `Module::group_identifiers` (protocol/build.rs lines 82-120): a
    trie of modules built from `::`-separated packet identifiers. */
module ModuleTree {
  import opened Results
  import opened OrderedMap
  import opened Paths

  /** A generated Rust module: its name, its child modules keyed by name (a
      `BTreeMap`), and the leaf identifiers declared directly in it, in the
      order they were added. */
  datatype Module = Module(name: string, children: Table<Module>, identifiers: seq<string>)

  /** The tree invariant: children are kept in key order, no child is keyed by
      the empty string, and every child's `name` is its key in the parent. */
  predicate WellFormed(m: Module)
    decreases m
  {
    ChildrenWellFormed(m.children)
  }

  predicate ChildrenWellFormed(cs: Table<Module>)
    decreases cs
  {
    && Ordered(cs)
    && match cs
       case Empty => true
       case Node(k, c, rest) => k != "" && c.name == k && WellFormed(c) && ChildrenWellFormed(rest)
  }

  /** `Module::new` (lines 90-96): a module with no children and no identifiers. */
  function NewModule(name: string): (r: Module)
    ensures WellFormed(r) && r.name == name
    ensures forall q :: IdsAt(r, q) == []
    ensures forall prefix :: LeafNames(r, prefix) == []
  {
    Module(name, Empty, [])
  }

  /** The module reached from `m` by following the children named in `q`. */
  function Lookup(m: Module, q: seq<string>): Option<Module>
    decreases |q|
  {
    if |q| == 0 then Some(m)
    else match Get(m.children, q[0])
      case None => None
      case Some(c) => Lookup(c, q[1..])
  }

  /** The identifiers declared in the module at path `q`; none if there is no
      such module. */
  function IdsAt(m: Module, q: seq<string>): seq<string>
  {
    match Lookup(m, q)
    case None => []
    case Some(n) => n.identifiers
  }

  /** The child stored under `k`, or a new module named `k` when there is none
      (`entry(..).or_insert_with(..)`, lines 110-111). */
  function ChildOrNew(cs: Table<Module>, k: string): (c: Module)
    requires ChildrenWellFormed(cs)
    ensures WellFormed(c) && c.name == k
    ensures Get(cs, k).Some? ==> c == Get(cs, k).value
    ensures Get(cs, k).None? ==> c == NewModule(k)
  {
    ChildWellFormed(cs, k);
    match Get(cs, k)
    case Some(c) => c
    case None => NewModule(k)
  }

  /** The inner loop of `group_identifiers` (lines 103-115): walk down `path`,
      skipping empty parts and creating each missing child, then append `leaf`
      to the module reached. */
  function InsertLeaf(m: Module, path: seq<string>, leaf: string): (r: Module)
    requires WellFormed(m)
    ensures WellFormed(r) && r.name == m.name
    decreases |path|
  {
    if |path| == 0 then m.(identifiers := m.identifiers + [leaf])
    else if path[0] == "" then InsertLeaf(m, path[1..], leaf)
    else
      var child' := InsertLeaf(ChildOrNew(m.children, path[0]), path[1..], leaf);
      InsertKeepsChildrenWellFormed(m.children, path[0], child');
      m.(children := Insert(m.children, path[0], child'))
  }

  lemma {:induction false} ChildWellFormed(cs: Table<Module>, k: string)
    requires ChildrenWellFormed(cs)
    ensures Get(cs, k).Some? ==> Get(cs, k).value.name == k && WellFormed(Get(cs, k).value)
    decreases cs
  {
    match cs
    case Empty =>
    case Node(k', c, rest) =>
      if k' != k { ChildWellFormed(rest, k); }
  }

  lemma {:induction false} InsertKeepsChildrenWellFormed(cs: Table<Module>, k: string, c: Module)
    requires ChildrenWellFormed(cs) && k != "" && c.name == k && WellFormed(c)
    ensures ChildrenWellFormed(Insert(cs, k, c))
    decreases cs
  {
    match cs
    case Empty =>
    case Node(k', c', rest) =>
      if k' != k && !Ordering.Below(k, k') {
        InsertKeepsChildrenWellFormed(rest, k, c);
      }
  }

  /** The module path an identifier is filed under: its `::`-separated parts
      except the last, with empty parts dropped. */
  function ModulePath(identifier: string): seq<string>
  {
    var parts := SplitPath(identifier);
    NonEmpty(parts[..|parts| - 1])
  }

  /** The leaf an identifier contributes: its last `::`-separated part. */
  function LeafOf(identifier: string): string
  {
    var parts := SplitPath(identifier);
    parts[|parts| - 1]
  }

  /** One iteration of the outer loop of `group_identifiers` (lines 101-116). */
  function AddIdentifier(m: Module, identifier: string): (r: Module)
    requires WellFormed(m)
    ensures WellFormed(r) && r.name == m.name
  {
    var parts := SplitPath(identifier);
    InsertLeaf(m, parts[..|parts| - 1], parts[|parts| - 1])
  }

  /** `Module::group_identifiers` (lines 98-119): a root module named `root`
      with every identifier added in input order. */
  function GroupIdentifiers(root: string, identifiers: seq<string>): (r: Module)
    ensures WellFormed(r) && r.name == root
  {
    if |identifiers| == 0 then NewModule(root)
    else AddIdentifier(GroupIdentifiers(root, identifiers[..|identifiers| - 1]), identifiers[|identifiers| - 1])
  }

  /** The dotted packet names `fmt` rebuilds for the leaves of `m` (line 153), in
      emission order: the children's leaves first, in key order, then the
      module's own identifiers. `prefix` is the path of `m` as `fmt` spells it. */
  function LeafNames(m: Module, prefix: string): seq<string>
    decreases m
  {
    ChildLeafNames(m.children, prefix) + PrefixAll(prefix, m.identifiers)
  }

  function ChildLeafNames(cs: Table<Module>, prefix: string): seq<string>
    decreases cs
  {
    match cs
    case Empty => []
    case Node(_, c, rest) => LeafNames(c, prefix + c.name + ".") + ChildLeafNames(rest, prefix)
  }

  function PrefixAll(prefix: string, identifiers: seq<string>): (r: seq<string>)
    ensures |r| == |identifiers|
    ensures forall i :: 0 <= i < |r| ==> r[i] == prefix + identifiers[i]
  {
    if |identifiers| == 0 then [] else [prefix + identifiers[0]] + PrefixAll(prefix, identifiers[1..])
  }

  /** The children's own names, in key order: the modules `fmt` opens directly
      inside a module (lines 141 and 147). */
  function ChildNames(cs: Table<Module>): (r: seq<string>)
    ensures |r| == |Entries(cs)|
    ensures forall i :: 0 <= i < |r| ==> r[i] == Entries(cs)[i].1.name
  {
    match cs
    case Empty => []
    case Node(_, c, rest) => [c.name] + ChildNames(rest)
  }

  /** In a well-formed tree each child is named by its key, so the children are
      opened in ascending key order. */
  lemma {:induction false} ChildNamesAreKeys(cs: Table<Module>)
    requires ChildrenWellFormed(cs)
    ensures forall i :: 0 <= i < |ChildNames(cs)| ==> ChildNames(cs)[i] == Entries(cs)[i].0
    decreases cs
  {
    match cs
    case Empty =>
    case Node(k, c, rest) =>
      ChildNamesAreKeys(rest);
      forall i | 0 < i < |ChildNames(cs)| ensures ChildNames(cs)[i] == Entries(cs)[i].0 {
        assert ChildNames(cs)[i] == ChildNames(rest)[i - 1] && Entries(cs)[i] == Entries(rest)[i - 1];
      }
  }

  /** The name `fmt` rebuilds for an identifier once it sits in the tree. */
  function RebuiltName(identifier: string): string
  {
    PathPrefix(ModulePath(identifier)) + LeafOf(identifier)
  }

  function RebuiltNames(identifiers: seq<string>): (r: seq<string>)
    ensures |r| == |identifiers|
  {
    if |identifiers| == 0 then []
    else RebuiltNames(identifiers[..|identifiers| - 1]) + [RebuiltName(identifiers[|identifiers| - 1])]
  }

  /** The identifiers, in input order, that are filed under module path `q`,
      each reduced to its leaf. */
  function LeavesFiledAt(identifiers: seq<string>, q: seq<string>): seq<string>
  {
    if |identifiers| == 0 then []
    else
      var last := identifiers[|identifiers| - 1];
      LeavesFiledAt(identifiers[..|identifiers| - 1], q) + (if ModulePath(last) == q then [LeafOf(last)] else [])
  }

  predicate IsPrefix(q: seq<string>, p: seq<string>)
  {
    |q| <= |p| && forall i :: 0 <= i < |q| ==> q[i] == p[i]
  }

  // ----- one insertion -----

  /** Inserting a leaf appends it to the identifiers of exactly the module at its
      non-empty path and changes no other module's identifiers. */
  lemma {:induction false} InsertLeafIdsAt(m: Module, path: seq<string>, leaf: string, q: seq<string>)
    requires WellFormed(m)
    ensures IdsAt(InsertLeaf(m, path, leaf), q) ==
            if q == NonEmpty(path) then IdsAt(m, q) + [leaf] else IdsAt(m, q)
    decreases |path|
  {
    if |path| == 0 {
    } else if path[0] == "" {
      InsertLeafIdsAt(m, path[1..], leaf, q);
    } else {
      var k := path[0];
      var child := ChildOrNew(m.children, k);
      var child' := InsertLeaf(child, path[1..], leaf);
      var r := InsertLeaf(m, path, leaf);
      assert r.children == Insert(m.children, k, child');
      assert NonEmpty(path) == [k] + NonEmpty(path[1..]);
      if |q| > 0 && q[0] == k {
        InsertLeafIdsAt(child, path[1..], leaf, q[1..]);
        assert Lookup(r, q) == Lookup(child', q[1..]);
        assert q == [k] + q[1..];
        if Get(m.children, k).None? {
          assert IdsAt(m, q) == [];
          assert IdsAt(child, q[1..]) == [];
        } else {
          assert Lookup(m, q) == Lookup(child, q[1..]);
        }
      }
    }
  }

  /** Inserting a leaf creates exactly the modules along its non-empty path that
      did not exist yet; a shared prefix reuses the existing modules. */
  lemma {:induction false} InsertLeafLookup(m: Module, path: seq<string>, leaf: string, q: seq<string>)
    requires WellFormed(m)
    ensures Lookup(InsertLeaf(m, path, leaf), q).Some? <==> Lookup(m, q).Some? || IsPrefix(q, NonEmpty(path))
    decreases |path|
  {
    if |path| == 0 {
    } else if path[0] == "" {
      InsertLeafLookup(m, path[1..], leaf, q);
    } else if |q| > 0 {
      var k := path[0];
      var child := ChildOrNew(m.children, k);
      var child' := InsertLeaf(child, path[1..], leaf);
      assert InsertLeaf(m, path, leaf) == m.(children := Insert(m.children, k, child'));
      LookupInserted(m, k, child', q);
      PrefixStep(path, q);
      if q[0] == k {
        InsertLeafLookup(child, path[1..], leaf, q[1..]);
        if Get(m.children, k).None? {
          NewModuleLookup(k, q[1..]);
        }
      }
    }
  }

  /** Looking up a path in a module whose child `k` was just stored. */
  lemma LookupInserted(m: Module, k: string, c: Module, q: seq<string>)
    requires Ordered(m.children) && |q| > 0
    ensures Lookup(m.(children := Insert(m.children, k, c)), q) ==
            if q[0] == k then Lookup(c, q[1..]) else Lookup(m, q)
  {
  }

  /** A new module holds only itself. */
  lemma NewModuleLookup(name: string, q: seq<string>)
    ensures Lookup(NewModule(name), q).Some? <==> |q| == 0
  {
  }

  /** A non-empty path is a prefix of a path that starts with a non-empty part
      exactly when it starts with that part and its tail is a prefix of the rest. */
  lemma PrefixStep(path: seq<string>, q: seq<string>)
    requires |path| > 0 && path[0] != "" && |q| > 0
    ensures IsPrefix(q, NonEmpty(path)) <==> q[0] == path[0] && IsPrefix(q[1..], NonEmpty(path[1..]))
  {
    var rest := NonEmpty(path[1..]);
    var p := NonEmpty(path);
    assert p == [path[0]] + rest;
    if IsPrefix(q, p) {
      assert q[0] == p[0];
      forall i | 0 <= i < |q[1..]| ensures q[1..][i] == rest[i] {
        assert q[1..][i] == q[i + 1] == p[i + 1];
      }
    }
    if q[0] == path[0] && IsPrefix(q[1..], rest) {
      forall i | 0 <= i < |q| ensures q[i] == p[i] {
        if i > 0 {
          assert q[i] == q[1..][i - 1];
        }
      }
    }
  }

  /** The rebuilt names contributed by one child entry. */
  function EntryLeafNames(c: Module, prefix: string): seq<string>
  {
    LeafNames(c, prefix + c.name + ".")
  }

  lemma {:induction false} InsertNewChildLeafNames(cs: Table<Module>, k: string, c: Module, prefix: string)
    requires Ordered(cs) && Get(cs, k).None?
    ensures multiset(ChildLeafNames(Insert(cs, k, c), prefix)) ==
            multiset(ChildLeafNames(cs, prefix)) + multiset(EntryLeafNames(c, prefix))
    decreases cs
  {
    match cs
    case Empty =>
      assert ChildLeafNames(Insert(cs, k, c), prefix) == EntryLeafNames(c, prefix) + [];
    case Node(k', c', rest) =>
      if Ordering.Below(k, k') {
        assert Insert(cs, k, c) == Node(k, c, cs);
        assert ChildLeafNames(Insert(cs, k, c), prefix) == EntryLeafNames(c, prefix) + ChildLeafNames(cs, prefix);
      } else {
        Ordering.BelowTotal(k, k');
        var rest' := Insert(rest, k, c);
        assert Insert(cs, k, c) == Node(k', c', rest');
        assert ChildLeafNames(Insert(cs, k, c), prefix) == EntryLeafNames(c', prefix) + ChildLeafNames(rest', prefix);
        assert ChildLeafNames(cs, prefix) == EntryLeafNames(c', prefix) + ChildLeafNames(rest, prefix);
        InsertNewChildLeafNames(rest, k, c, prefix);
      }
  }

  lemma AddCommutes(a: multiset<string>, r: multiset<string>, b: multiset<string>)
    ensures (a + r) + b == (b + r) + a
  {
  }

  lemma AddShifts(h: multiset<string>, r': multiset<string>, p: multiset<string>, r: multiset<string>, n: multiset<string>)
    requires r' + p == r + n
    ensures (h + r') + p == (h + r) + n
  {
    assert (h + r') + p == h + (r' + p);
    assert h + (r + n) == (h + r) + n;
  }

  lemma {:induction false} ReplaceExistingChildLeafNames(cs: Table<Module>, k: string, prior: Module, c: Module, prefix: string)
    requires Ordered(cs) && Get(cs, k) == Some(prior)
    ensures multiset(ChildLeafNames(Insert(cs, k, c), prefix)) + multiset(EntryLeafNames(prior, prefix)) ==
            multiset(ChildLeafNames(cs, prefix)) + multiset(EntryLeafNames(c, prefix))
    decreases cs
  {
    match cs
    case Node(k', c', rest) =>
      var mRest := multiset(ChildLeafNames(rest, prefix));
      var mHead := multiset(EntryLeafNames(c', prefix));
      var mNew := multiset(EntryLeafNames(c, prefix));
      var mPrior := multiset(EntryLeafNames(prior, prefix));
      assert multiset(ChildLeafNames(cs, prefix)) == mHead + mRest;
      if k' == k {
        assert Insert(cs, k, c) == Node(k, c, rest);
        assert multiset(ChildLeafNames(Insert(cs, k, c), prefix)) == mNew + mRest;
        assert mPrior == mHead;
        AddCommutes(mNew, mRest, mHead);
      } else {
        assert Get(rest, k) == Some(prior);
        assert k in Keys(rest);
        assert Ordering.Below(k', k);
        Ordering.BelowAsymmetric(k, k');
        var rest' := Insert(rest, k, c);
        assert Insert(cs, k, c) == Node(k', c', rest');
        ReplaceExistingChildLeafNames(rest, k, prior, c, prefix);
        var mRest' := multiset(ChildLeafNames(rest', prefix));
        assert multiset(ChildLeafNames(Insert(cs, k, c), prefix)) == mHead + mRest';
        AddShifts(mHead, mRest', mPrior, mRest, mNew);
      }
  }

  /** Inserting a leaf adds exactly one rebuilt name: the module path's prefix
      followed by the leaf. */
  lemma {:induction false} InsertLeafNames(m: Module, path: seq<string>, leaf: string, prefix: string)
    requires WellFormed(m)
    ensures multiset(LeafNames(InsertLeaf(m, path, leaf), prefix)) ==
            multiset(LeafNames(m, prefix)) + multiset{prefix + PathPrefix(NonEmpty(path)) + leaf}
    decreases |path|
  {
    if |path| == 0 {
      OwnLeafNames(m, leaf, prefix);
      assert prefix + PathPrefix(NonEmpty(path)) + leaf == prefix + leaf;
    } else if path[0] == "" {
      InsertLeafNames(m, path[1..], leaf, prefix);
    } else {
      var k := path[0];
      InsertLeafNames(ChildOrNew(m.children, k), path[1..], leaf, prefix + k + ".");
      DescendLeafNames(m, path, leaf, prefix);
      PathPrefixStep(prefix, path, leaf);
    }
  }

  /** The step of `InsertLeafNames` that files the leaf below child `path[0]`,
      given that filing it in the child adds one name there. */
  lemma DescendLeafNames(m: Module, path: seq<string>, leaf: string, prefix: string)
    requires WellFormed(m) && |path| > 0 && path[0] != ""
    requires multiset(LeafNames(InsertLeaf(ChildOrNew(m.children, path[0]), path[1..], leaf), prefix + path[0] + ".")) ==
             multiset(LeafNames(ChildOrNew(m.children, path[0]), prefix + path[0] + "."))
             + multiset{prefix + path[0] + "." + PathPrefix(NonEmpty(path[1..])) + leaf}
    ensures multiset(LeafNames(InsertLeaf(m, path, leaf), prefix)) ==
            multiset(LeafNames(m, prefix)) + multiset{prefix + path[0] + "." + PathPrefix(NonEmpty(path[1..])) + leaf}
  {
    var k := path[0];
    var child' := InsertLeaf(ChildOrNew(m.children, k), path[1..], leaf);
    InsertLeafStep(m, path, leaf);
    ReplaceChildLeafNames(m, k, child', prefix, prefix + k + "." + PathPrefix(NonEmpty(path[1..])) + leaf);
  }

  /** One step of the inner loop: below a non-empty part, the leaf is filed in
      the (possibly new) child of that name. */
  lemma InsertLeafStep(m: Module, path: seq<string>, leaf: string)
    requires WellFormed(m) && |path| > 0 && path[0] != ""
    ensures InsertLeaf(m, path, leaf) ==
            m.(children := Insert(m.children, path[0], InsertLeaf(ChildOrNew(m.children, path[0]), path[1..], leaf)))
  {
  }

  /** The rebuilt name of a leaf below child `path[0]`, spelled from that child. */
  lemma PathPrefixStep(prefix: string, path: seq<string>, leaf: string)
    requires |path| > 0 && path[0] != ""
    ensures prefix + PathPrefix(NonEmpty(path)) + leaf == prefix + path[0] + "." + PathPrefix(NonEmpty(path[1..])) + leaf
  {
    var a := path[0];
    var rest := NonEmpty(path[1..]);
    var t := PathPrefix(rest);
    assert NonEmpty(path) == [a] + rest;
    assert ([a] + rest)[1..] == rest;
    assert PathPrefix(NonEmpty(path)) == a + "." + t;
    Associate(prefix, a + ".", t);
    Associate(prefix, a, ".");
  }

  /** Appending an identifier to a module appends its name to the rebuilt names. */
  lemma OwnLeafNames(m: Module, leaf: string, prefix: string)
    ensures LeafNames(m.(identifiers := m.identifiers + [leaf]), prefix) == LeafNames(m, prefix) + [prefix + leaf]
  {
    var r := m.(identifiers := m.identifiers + [leaf]);
    var own := PrefixAll(prefix, m.identifiers);
    assert PrefixAll(prefix, r.identifiers) == own + [prefix + leaf];
    var kids := ChildLeafNames(m.children, prefix);
    assert LeafNames(r, prefix) == (kids + own) + [prefix + leaf];
  }

  /** The step of `InsertLeafNames` that descends into child `k`. */
  lemma ReplaceChildLeafNames(m: Module, k: string, child': Module, prefix: string, added: string)
    requires ChildrenWellFormed(m.children)
    requires child'.name == k
    requires multiset(LeafNames(child', prefix + k + ".")) ==
             multiset(LeafNames(ChildOrNew(m.children, k), prefix + k + ".")) + multiset{added}
    ensures multiset(LeafNames(m.(children := Insert(m.children, k, child')), prefix)) ==
            multiset(LeafNames(m, prefix)) + multiset{added}
  {
    var cs' := Insert(m.children, k, child');
    ChildrenGrow(m.children, k, child', prefix, added);
    var own := multiset(PrefixAll(prefix, m.identifiers));
    var before := multiset(ChildLeafNames(m.children, prefix));
    var after := multiset(ChildLeafNames(cs', prefix));
    LeafNamesSplit(m.(children := cs'), prefix);
    LeafNamesSplit(m, prefix);
    AddCommutes(before, multiset{added}, own);
  }

  /** The leaf names of a module are those of its children followed by its own. */
  lemma LeafNamesSplit(m: Module, prefix: string)
    ensures multiset(LeafNames(m, prefix)) ==
            multiset(ChildLeafNames(m.children, prefix)) + multiset(PrefixAll(prefix, m.identifiers))
  {
  }

  lemma ChildrenGrow(cs: Table<Module>, k: string, child': Module, prefix: string, added: string)
    requires ChildrenWellFormed(cs)
    requires child'.name == k
    requires multiset(LeafNames(child', prefix + k + ".")) ==
             multiset(LeafNames(ChildOrNew(cs, k), prefix + k + ".")) + multiset{added}
    ensures multiset(ChildLeafNames(Insert(cs, k, child'), prefix)) ==
            multiset(ChildLeafNames(cs, prefix)) + multiset{added}
  {
    if Get(cs, k).None? {
      ChildrenGrowNew(cs, k, child', prefix, added);
    } else {
      ChildrenGrowExisting(cs, k, child', prefix, added);
    }
  }

  lemma ChildrenGrowNew(cs: Table<Module>, k: string, child': Module, prefix: string, added: string)
    requires ChildrenWellFormed(cs) && Get(cs, k).None?
    requires child'.name == k
    requires multiset(LeafNames(child', prefix + k + ".")) ==
             multiset(LeafNames(NewModule(k), prefix + k + ".")) + multiset{added}
    ensures multiset(ChildLeafNames(Insert(cs, k, child'), prefix)) ==
            multiset(ChildLeafNames(cs, prefix)) + multiset{added}
  {
    InsertNewChildLeafNames(cs, k, child', prefix);
    assert LeafNames(NewModule(k), prefix + k + ".") == [];
    assert multiset(EntryLeafNames(child', prefix)) == multiset{added};
  }

  lemma ChildrenGrowExisting(cs: Table<Module>, k: string, child': Module, prefix: string, added: string)
    requires ChildrenWellFormed(cs) && Get(cs, k).Some?
    requires child'.name == k
    requires multiset(LeafNames(child', prefix + k + ".")) ==
             multiset(LeafNames(Get(cs, k).value, prefix + k + ".")) + multiset{added}
    ensures multiset(ChildLeafNames(Insert(cs, k, child'), prefix)) ==
            multiset(ChildLeafNames(cs, prefix)) + multiset{added}
  {
    var prior := Get(cs, k).value;
    ChildWellFormed(cs, k);
    ReplaceExistingChildLeafNames(cs, k, prior, child', prefix);
    var after := multiset(ChildLeafNames(Insert(cs, k, child'), prefix));
    var before := multiset(ChildLeafNames(cs, prefix));
    var mOld := multiset(EntryLeafNames(prior, prefix));
    var mNew := multiset(EntryLeafNames(child', prefix));
    assert mNew == mOld + multiset{added};
    CancelCommon(after, mOld, before, multiset{added});
  }

  lemma CancelCommon(x: multiset<string>, o: multiset<string>, y: multiset<string>, d: multiset<string>)
    requires x + o == y + (o + d)
    ensures x == y + d
  {
    forall e ensures x[e] == (y + d)[e] {
      assert (x + o)[e] == (y + (o + d))[e];
    }
  }

  // ----- the whole grouping -----

  /** Leaf placement and order: the module at path `q` declares, in input order,
      the leaves of exactly those identifiers whose non-empty module path is `q`. */
  lemma {:induction false} GroupIdsAt(root: string, identifiers: seq<string>, q: seq<string>)
    ensures IdsAt(GroupIdentifiers(root, identifiers), q) == LeavesFiledAt(identifiers, q)
    decreases |identifiers|
  {
    if |identifiers| > 0 {
      var init := identifiers[..|identifiers| - 1];
      var last := identifiers[|identifiers| - 1];
      GroupIdsAt(root, init, q);
      var parts := SplitPath(last);
      InsertLeafIdsAt(GroupIdentifiers(root, init), parts[..|parts| - 1], parts[|parts| - 1], q);
    }
  }

  /** The tree holds a module at path `q` exactly when `q` is empty (the root) or
      a prefix of some identifier's module path: one module per distinct prefix. */
  lemma {:induction false} GroupModules(root: string, identifiers: seq<string>, q: seq<string>)
    ensures Lookup(GroupIdentifiers(root, identifiers), q).Some? <==>
            |q| == 0 || exists i :: 0 <= i < |identifiers| && IsPrefix(q, ModulePath(identifiers[i]))
    decreases |identifiers|
  {
    if |identifiers| > 0 {
      var init := identifiers[..|identifiers| - 1];
      var last := identifiers[|identifiers| - 1];
      GroupModules(root, init, q);
      var parts := SplitPath(last);
      InsertLeafLookup(GroupIdentifiers(root, init), parts[..|parts| - 1], parts[|parts| - 1], q);
      SomePrefixExtends(identifiers, q);
    } else {
      assert Lookup(NewModule(root), q).Some? <==> |q| == 0;
    }
  }

  /** Some identifier's module path starts with `q`. */
  predicate SomePrefix(identifiers: seq<string>, q: seq<string>)
  {
    exists i :: 0 <= i < |identifiers| && IsPrefix(q, ModulePath(identifiers[i]))
  }

  lemma SomePrefixExtends(identifiers: seq<string>, q: seq<string>)
    requires |identifiers| > 0
    ensures SomePrefix(identifiers, q) <==>
            SomePrefix(identifiers[..|identifiers| - 1], q) || IsPrefix(q, ModulePath(identifiers[|identifiers| - 1]))
  {
    var init := identifiers[..|identifiers| - 1];
    if SomePrefix(identifiers, q) {
      var i :| 0 <= i < |identifiers| && IsPrefix(q, ModulePath(identifiers[i]));
      if i < |init| { assert init[i] == identifiers[i]; }
    }
    if SomePrefix(init, q) {
      var i :| 0 <= i < |init| && IsPrefix(q, ModulePath(init[i]));
      assert identifiers[i] == init[i];
    }
  }

  /** Every identifier yields exactly one leaf, and the names rebuilt from the
      tree are exactly the identifiers' rebuilt names, counted with multiplicity. */
  lemma {:induction false} GroupLeafNames(root: string, identifiers: seq<string>)
    ensures multiset(LeafNames(GroupIdentifiers(root, identifiers), "")) == multiset(RebuiltNames(identifiers))
    ensures |LeafNames(GroupIdentifiers(root, identifiers), "")| == |identifiers|
    decreases |identifiers|
  {
    if |identifiers| > 0 {
      var init := identifiers[..|identifiers| - 1];
      var last := identifiers[|identifiers| - 1];
      GroupLeafNames(root, init);
      var parts := SplitPath(last);
      InsertLeafNames(GroupIdentifiers(root, init), parts[..|parts| - 1], parts[|parts| - 1], "");
      RebuiltFromRoot(last);
      SameCount(LeafNames(GroupIdentifiers(root, identifiers), ""), RebuiltNames(identifiers));
    }
  }

  /** Rebuilding from the root, whose prefix is empty, gives the rebuilt name. */
  lemma RebuiltFromRoot(identifier: string)
    ensures "" + PathPrefix(ModulePath(identifier)) + LeafOf(identifier) == RebuiltName(identifier)
  {
    assert "" + PathPrefix(ModulePath(identifier)) == PathPrefix(ModulePath(identifier));
  }

  lemma SameCount(a: seq<string>, b: seq<string>)
    requires multiset(a) == multiset(b)
    ensures |a| == |b|
  {
    assert |a| == |multiset(a)| && |b| == |multiset(b)|;
  }

  /** For a well-formed dotted name, rewriting `.` to `::` and rebuilding the
      name from the module tree gives the original name back. */
  lemma NameRoundTrip(name: string)
    requires WellFormedName(name)
    ensures RebuiltName(ReplaceDots(name)) == name
  {
    SplitReplaceDots(name);
    var parts := SplitDots(name);
    NonEmptyKeepsFullPaths(parts[..|parts| - 1]);
    JoinSplitDots(name);
  }
}

=== FILE: ordered_map.dfy ===
/** A string-keyed `BTreeMap`, represented by its entries in iteration order.
    `Ordered` is the invariant the Rust type maintains: keys strictly increase, so
    each key occurs once and iteration visits keys in ascending order. */
module OrderedMap {
  import opened Results
  import opened Ordering

  datatype Table<V> = Empty | Node(key: string, value: V, rest: Table<V>)

  function Keys<V>(t: Table<V>): set<string>
  {
    match t
    case Empty => {}
    case Node(k, _, rest) => {k} + Keys(rest)
  }

  predicate Ordered<V>(t: Table<V>)
  {
    match t
    case Empty => true
    case Node(k, _, rest) => (forall k' :: k' in Keys(rest) ==> Below(k, k')) && Ordered(rest)
  }

  /** The entries in iteration order, as `BTreeMap::iter` yields them. */
  function Entries<V>(t: Table<V>): seq<(string, V)>
  {
    match t
    case Empty => []
    case Node(k, v, rest) => [(k, v)] + Entries(rest)
  }

  /** `BTreeMap::get`: the value stored under `k`, if any. */
  function Get<V>(t: Table<V>, k: string): (r: Option<V>)
    ensures r.Some? <==> k in Keys(t)
  {
    match t
    case Empty => None
    case Node(k', v, rest) => if k' == k then Some(v) else Get(rest, k)
  }

  /** `BTreeMap::insert`: stores `v` under `k`, replacing an existing value in
      place and otherwise adding the key at its sorted position. */
  function Insert<V>(t: Table<V>, k: string, v: V): (r: Table<V>)
    requires Ordered(t)
    ensures Ordered(r)
    ensures Keys(r) == Keys(t) + {k}
    ensures Get(r, k) == Some(v)
    ensures forall k' :: k' != k ==> Get(r, k') == Get(t, k')
  {
    match t
    case Empty => Node(k, v, Empty)
    case Node(k', v', rest) =>
      if k' == k then Node(k, v, rest)
      else if Below(k, k') then
        assert forall k'' :: k'' in Keys(t) ==> Below(k, k'') by {
          forall k'' | k'' in Keys(t) ensures Below(k, k'') {
            if k'' != k' { BelowTransitive(k, k', k''); }
          }
        }
        Node(k, v, t)
      else
        BelowTotal(k, k');
        Node(k', v', Insert(rest, k, v))
  }

  /** Iteration visits the keys in strictly ascending order and visits exactly
      the keys of the map. */
  lemma EntriesAscending<V>(t: Table<V>)
    requires Ordered(t)
    ensures forall i, j :: 0 <= i < j < |Entries(t)| ==> Below(Entries(t)[i].0, Entries(t)[j].0)
    ensures forall i :: 0 <= i < |Entries(t)| ==> Entries(t)[i].0 in Keys(t)
    ensures forall k :: k in Keys(t) ==> exists i :: 0 <= i < |Entries(t)| && Entries(t)[i].0 == k
    ensures forall i :: 0 <= i < |Entries(t)| ==> Get(t, Entries(t)[i].0) == Some(Entries(t)[i].1)
  {
    EntriesKeys(t);
    forall k | k in Keys(t) ensures exists i :: 0 <= i < |Entries(t)| && Entries(t)[i].0 == k {
      var i := IndexOf(t, k);
      assert Entries(t)[i].0 == k;
    }
    EntriesSorted(t);
    EntriesGet(t);
  }

  /** The position of `k` in iteration order. */
  function IndexOf<V>(t: Table<V>, k: string): nat
  {
    match t
    case Empty => 0
    case Node(k', _, rest) => if k' == k then 0 else 1 + IndexOf(rest, k)
  }

  /** The entries' keys are exactly the table's keys. */
  lemma {:induction false} EntriesKeys<V>(t: Table<V>)
    ensures forall i :: 0 <= i < |Entries(t)| ==> Entries(t)[i].0 in Keys(t)
    ensures forall k :: k in Keys(t) ==> IndexOf(t, k) < |Entries(t)| && Entries(t)[IndexOf(t, k)].0 == k
  {
    match t
    case Empty =>
    case Node(k, v, rest) =>
      EntriesKeys(rest);
      var es := Entries(t);
      var tail := Entries(rest);
      assert es == [(k, v)] + tail;
      forall i | 0 < i < |es| ensures es[i] == tail[i - 1] { }
  }

  lemma {:induction false} EntriesSorted<V>(t: Table<V>)
    requires Ordered(t)
    ensures forall i, j :: 0 <= i < j < |Entries(t)| ==> Below(Entries(t)[i].0, Entries(t)[j].0)
  {
    match t
    case Empty =>
    case Node(k, v, rest) =>
      EntriesSorted(rest);
      EntriesKeys(rest);
      var es := Entries(t);
      var tail := Entries(rest);
      assert es == [(k, v)] + tail;
      forall i | 0 < i < |es| ensures es[i] == tail[i - 1] && Below(k, es[i].0) { }
  }

  lemma {:induction false} EntriesGet<V>(t: Table<V>)
    requires Ordered(t)
    ensures forall i :: 0 <= i < |Entries(t)| ==> Get(t, Entries(t)[i].0) == Some(Entries(t)[i].1)
  {
    match t
    case Empty =>
    case Node(k, v, rest) =>
      EntriesGet(rest);
      EntriesKeys(rest);
      var es := Entries(t);
      var tail := Entries(rest);
      assert es == [(k, v)] + tail;
      forall i | 0 < i < |es| ensures Get(t, es[i].0) == Some(es[i].1) {
        assert es[i] == tail[i - 1];
        BelowIrreflexive(k);
      }
  }
}

=== FILE: ordering.dfy ===
/** The order Rust's `Ord for String` uses: lexicographic comparison. Rust compares
    the UTF-8 bytes; for Unicode scalar values that is the same as comparing the
    characters one by one, which is what `Below` does. */
module Ordering {

  /** `a` sorts strictly before `b`. */
  predicate Below(a: string, b: string)
    decreases |a|
  {
    if |a| == 0 then |b| > 0
    else if |b| == 0 then false
    else if a[0] != b[0] then a[0] < b[0]
    else Below(a[1..], b[1..])
  }

  lemma {:induction false} BelowIrreflexive(a: string)
    ensures !Below(a, a)
    decreases |a|
  {
    if |a| > 0 {
      BelowIrreflexive(a[1..]);
    }
  }

  lemma {:induction false} BelowAsymmetric(a: string, b: string)
    ensures !(Below(a, b) && Below(b, a))
    decreases |a|
  {
    if |a| > 0 && |b| > 0 && a[0] == b[0] {
      BelowAsymmetric(a[1..], b[1..]);
    }
  }

  lemma {:induction false} BelowTransitive(a: string, b: string, c: string)
    requires Below(a, b) && Below(b, c)
    ensures Below(a, c)
    decreases |a|
  {
    if |a| > 0 && a[0] == b[0] && b[0] == c[0] {
      BelowTransitive(a[1..], b[1..], c[1..]);
    }
  }

  /** Any two different strings are ordered one way or the other. */
  lemma {:induction false} BelowTotal(a: string, b: string)
    requires a != b
    ensures Below(a, b) || Below(b, a)
    decreases |a|
  {
    if |a| > 0 && |b| > 0 && a[0] == b[0] {
      assert a == [a[0]] + a[1..] && b == [b[0]] + b[1..];
      BelowTotal(a[1..], b[1..]);
    }
  }
}

=== FILE: paths.dfy ===
/** Packet names and module paths (protocol/build.rs lines 102, 153 and 217):
    dotted names such as `battle.tank.Fire` are rewritten to `battle::tank::Fire`,
    split on `::` to build the module tree, and rebuilt as `battle.tank.Fire`
    from the module path when the packet is emitted. */
module Paths {

  predicate StartsWithSeparator(s: string)
  {
    |s| >= 2 && s[0] == ':' && s[1] == ':'
  }

  /** `str::split("::")`: cuts at the leftmost occurrence of `::`, then continues
      after it, so occurrences never overlap. There is always at least one part. */
  function SplitPath(s: string): (parts: seq<string>)
    ensures |parts| >= 1
    decreases |s|
  {
    if |s| == 0 then [""]
    else if StartsWithSeparator(s) then [""] + SplitPath(s[2..])
    else
      var tail := SplitPath(s[1..]);
      [[s[0]] + tail[0]] + tail[1..]
  }

  /** The parts joined back with `::` between them. */
  function JoinPath(parts: seq<string>): string
    requires |parts| >= 1
  {
    if |parts| == 1 then parts[0] else parts[0] + "::" + JoinPath(parts[1..])
  }

  /** Splitting loses nothing: joining the parts gives the input back. */
  lemma {:induction false} JoinSplitPath(s: string)
    ensures JoinPath(SplitPath(s)) == s
    decreases |s|
  {
    if |s| == 0 {
    } else if StartsWithSeparator(s) {
      JoinSplitPath(s[2..]);
      assert s == "::" + s[2..];
    } else {
      var tail := SplitPath(s[1..]);
      JoinSplitPath(s[1..]);
      var parts := [[s[0]] + tail[0]] + tail[1..];
      assert SplitPath(s) == parts;
      assert s == [s[0]] + s[1..];
      if |tail| > 1 {
        assert parts[1..] == tail[1..];
        assert JoinPath(tail) == tail[0] + "::" + JoinPath(tail[1..]);
        assert JoinPath(parts) == ([s[0]] + tail[0]) + "::" + JoinPath(tail[1..]);
        Associate([s[0]], tail[0], "::");
        Associate([s[0]], tail[0] + "::", JoinPath(tail[1..]));
      }
    }
  }

  /** Concatenation regroups freely; the joins below rely on it. */
  lemma Associate<T>(x: seq<T>, y: seq<T>, z: seq<T>)
    ensures x + (y + z) == x + y + z
  {
  }

  /** A prefix of a concatenation that ends inside the first part. */
  lemma TakeLeft<T>(a: seq<T>, b: seq<T>, n: nat)
    requires n <= |a|
    ensures (a + b)[..n] == a[..n]
  {
  }

  /** A prefix of a concatenation that ends inside the second part. */
  lemma TakeRight<T>(a: seq<T>, b: seq<T>, n: nat)
    requires |a| <= n <= |a| + |b|
    ensures (a + b)[..n] == a + b[..n - |a|]
  {
  }

  predicate NoColon(s: string)
  {
    forall i :: 0 <= i < |s| ==> s[i] != ':'
  }

  lemma {:induction false} SplitPathColonFree(p: string, rest: seq<string>)
    requires NoColon(p)
    ensures |rest| == 0 ==> SplitPath(p) == [p]
    ensures |rest| >= 1 ==> SplitPath(p + "::" + JoinPath(rest)) == [p] + SplitPath(JoinPath(rest))
    decreases |p|
  {
    if |p| > 0 {
      SplitPathColonFree(p[1..], rest);
      assert p == [p[0]] + p[1..];
      if |rest| >= 1 {
        var s := p + "::" + JoinPath(rest);
        assert s[1..] == p[1..] + "::" + JoinPath(rest);
      }
    } else if |rest| >= 1 {
      assert (p + "::" + JoinPath(rest))[2..] == JoinPath(rest);
    }
  }

  /** When no part contains a colon, splitting the joined parts gives them back. */
  lemma {:induction false} SplitJoinPath(parts: seq<string>)
    requires |parts| >= 1
    requires forall i :: 0 <= i < |parts| ==> NoColon(parts[i])
    ensures SplitPath(JoinPath(parts)) == parts
    decreases |parts|
  {
    if |parts| == 1 {
      SplitPathColonFree(parts[0], []);
    } else {
      SplitJoinPath(parts[1..]);
      SplitPathColonFree(parts[0], parts[1..]);
      assert parts == [parts[0]] + parts[1..];
    }
  }

  /** The dot-separated segments of a packet name; always at least one. */
  function SplitDots(s: string): (parts: seq<string>)
    ensures |parts| >= 1
  {
    if |s| == 0 then [""]
    else if s[0] == '.' then [""] + SplitDots(s[1..])
    else
      var tail := SplitDots(s[1..]);
      [[s[0]] + tail[0]] + tail[1..]
  }

  /** How `fmt` spells a module path: each module name followed by a dot. */
  function PathPrefix(segments: seq<string>): string
  {
    if |segments| == 0 then "" else segments[0] + "." + PathPrefix(segments[1..])
  }

  /** The segments joined with dots: the module path's prefix plus the last segment. */
  function JoinDots(parts: seq<string>): string
    requires |parts| >= 1
  {
    PathPrefix(parts[..|parts| - 1]) + parts[|parts| - 1]
  }

  lemma PathPrefixAppend(segments: seq<string>, last: string)
    ensures PathPrefix(segments + [last]) == PathPrefix(segments) + last + "."
  {
    if |segments| > 0 {
      assert (segments + [last])[1..] == segments[1..] + [last];
    }
  }

  /** Splitting a name on dots and joining the segments gives the name back. */
  lemma {:induction false} JoinSplitDots(s: string)
    ensures JoinDots(SplitDots(s)) == s
    decreases |s|
  {
    if |s| > 0 {
      JoinSplitDots(s[1..]);
      var tail := SplitDots(s[1..]);
      assert s == [s[0]] + s[1..];
      if s[0] == '.' {
        JoinDotsCons("", tail);
      } else if |tail| == 1 {
        assert SplitDots(s) == [[s[0]] + tail[0]];
      } else {
        var rest := tail[1..];
        assert tail == [tail[0]] + rest;
        JoinDotsCons(tail[0], rest);
        JoinDotsCons([s[0]] + tail[0], rest);
        assert SplitDots(s) == [[s[0]] + tail[0]] + rest;
        Associate([s[0]], tail[0], ".");
        Associate([s[0]], tail[0] + ".", JoinDots(rest));
      }
    }
  }

  /** Joining one more segment in front adds it and a dot. */
  lemma JoinDotsCons(head: string, tail: seq<string>)
    requires |tail| >= 1
    ensures JoinDots([head] + tail) == head + "." + JoinDots(tail)
  {
    var parts := [head] + tail;
    var init := tail[..|tail| - 1];
    assert parts[..|parts| - 1] == [head] + init;
    assert ([head] + init)[1..] == init;
    assert PathPrefix([head] + init) == head + "." + PathPrefix(init);
  }

  /** `str::replace('.', "::")`: every dot becomes a double colon. */
  function ReplaceDots(s: string): (r: string)
  {
    if |s| == 0 then ""
    else if s[0] == '.' then "::" + ReplaceDots(s[1..])
    else [s[0]] + ReplaceDots(s[1..])
  }

  /** For a name without colons, rewriting the dots and splitting on `::` yields
      exactly the name's dot-separated segments. */
  lemma {:induction false} SplitReplaceDots(s: string)
    requires NoColon(s)
    ensures SplitPath(ReplaceDots(s)) == SplitDots(s)
    decreases |s|
  {
    if |s| > 0 {
      SplitReplaceDots(s[1..]);
      var r := ReplaceDots(s);
      if s[0] == '.' {
        assert StartsWithSeparator(r) && r[2..] == ReplaceDots(s[1..]);
      } else {
        assert !StartsWithSeparator(r) && r[1..] == ReplaceDots(s[1..]);
      }
    }
  }

  /** The parts that are not empty, in order: the path segments the module tree
      follows (empty segments are skipped at line 106). */
  function NonEmpty(parts: seq<string>): (r: seq<string>)
    ensures forall i :: 0 <= i < |r| ==> r[i] != ""
    ensures |r| <= |parts|
  {
    if |parts| == 0 then []
    else if parts[0] == "" then NonEmpty(parts[1..])
    else [parts[0]] + NonEmpty(parts[1..])
  }

  /** One part is kept exactly when it is not empty. */
  lemma NonEmptySingle(p: string)
    ensures NonEmpty([p]) == if p == "" then [] else [p]
  {
    assert [p][1..] == [];
  }

  /** Filtering distributes over concatenation: the kept parts of a path are the
      kept parts of its pieces, in order. Together with `NonEmptySingle` this pins
      the function down part by part. */
  lemma {:induction false} NonEmptyConcat(a: seq<string>, b: seq<string>)
    ensures NonEmpty(a + b) == NonEmpty(a) + NonEmpty(b)
    decreases |a|
  {
    if |a| == 0 {
      assert a + b == b;
    } else {
      assert (a + b)[0] == a[0];
      assert (a + b)[1..] == a[1..] + b;
      NonEmptyConcat(a[1..], b);
    }
  }

  lemma {:induction false} NonEmptyKeepsFullPaths(parts: seq<string>)
    requires forall i :: 0 <= i < |parts| ==> parts[i] != ""
    ensures NonEmpty(parts) == parts
    decreases |parts|
  {
    if |parts| > 0 {
      NonEmptyKeepsFullPaths(parts[1..]);
    }
  }

  /** A packet name whose round trip through the module tree is exact: no colon
      (which `::` splitting would misread) and no empty segment before the last
      (which the tree skips). */
  predicate WellFormedName(n: string)
  {
    && NoColon(n)
    && forall i :: 0 <= i < |SplitDots(n)| - 1 ==> SplitDots(n)[i] != ""
  }
}

=== FILE: pipeline.dfy ===
/** The generator's main path (protocol/build.rs lines 192-227): resolve codecs,
    drop packets with unknown codecs, group the remaining packets' names into
    the module tree under `packets`, and emit the tree. */
module Pipeline {
  import opened Results
  import opened OrderedMap
  import opened Paths
  import opened ModuleTree
  import opened Definitions
  import opened Emit

  /** The root module's name (line 215). */
  const RootName: string := "packets"

  lemma {:induction false} RetainFieldsOrdered(defs: PacketTable, skipped: set<int>)
    requires FieldsOrdered(defs)
    ensures FieldsOrdered(Retain(defs, skipped))
  {
    var r := Retain(defs, skipped);
    forall i | 0 <= i < |r| ensures Ordered(r[i].1.fields) {
      var j :| 0 <= j < |defs| && defs[j] == r[i];
    }
  }

  /** Resolved packets carry ordered field maps, whatever order the input had. */
  lemma ResolvedFieldsOrdered(defs: PacketTable, codecs: map<string, string>, snake: string -> string)
    ensures FieldsOrdered(Resolve(defs, codecs, snake))
  {
    var (converted, skipped) := ConvertAll(defs, codecs, snake);
    RetainFieldsOrdered(converted, skipped);
  }

  function Generate(defs: PacketTable, codecs: map<string, string>, snake: string -> string)
    : Result<seq<Item>, string>
  {
    var kept := Resolve(defs, codecs, snake);
    ResolvedFieldsOrdered(defs, codecs, snake);
    EmitModule(kept, GroupIdentifiers(RootName, Identifiers(kept)), 0, "")
  }

  predicate NamesWellFormed(defs: PacketTable)
  {
    forall i :: 0 <= i < |defs| && defs[i].1.name.Some? ==> WellFormedName(defs[i].1.name.value)
  }

  lemma KeptNamesWellFormed(defs: PacketTable, codecs: map<string, string>, snake: string -> string)
    requires NamesWellFormed(defs)
    ensures NamesWellFormed(Resolve(defs, codecs, snake))
  {
    var (converted, skipped) := ConvertAll(defs, codecs, snake);
    var kept := Resolve(defs, codecs, snake);
    forall i | 0 <= i < |kept| && kept[i].1.name.Some? ensures WellFormedName(kept[i].1.name.value) {
      var j :| 0 <= j < |converted| && converted[j] == kept[i];
      assert converted[j].1.name == defs[j].1.name;
    }
  }

  lemma {:induction false} RebuiltNamesAt(identifiers: seq<string>)
    ensures forall i :: 0 <= i < |identifiers| ==> RebuiltNames(identifiers)[i] == RebuiltName(identifiers[i])
    decreases |identifiers|
  {
    if |identifiers| > 0 {
      var n := |identifiers| - 1;
      RebuiltNamesAt(identifiers[..n]);
    }
  }

  /** With well-formed names the rebuilt names are the packet names themselves. */
  lemma RebuiltAreNames(defs: PacketTable)
    requires NamesWellFormed(defs)
    ensures RebuiltNames(Identifiers(defs)) == NamesOf(defs)
  {
    var names := NamesOf(defs);
    var ids := Identifiers(defs);
    RebuiltNamesAt(ids);
    forall i | 0 <= i < |names| ensures RebuiltNames(ids)[i] == names[i] {
      var j :| 0 <= j < |defs| && defs[j].1.name == Some(names[i]);
      NameRoundTrip(names[i]);
    }
  }

  /** End to end: when every packet kept after codec resolution has a well
      formed name, generation does not panic, and the packets written are
      exactly the kept packets that have a name, each once, under its own dotted
      name, each with the struct and codec generated from its definition. The
      output is one module, `packets`, opened first and closed last. Every
      packet sits inside `packets` and then inside exactly the modules its
      dotted name spells, indented one level per module, so the path
      `super::packets::…` that line 236 registers names its struct. Packets
      dropped by `retain` are never grouped, so their names do not matter. */
  lemma GenerateWritesEveryKeptPacket(defs: PacketTable, codecs: map<string, string>, snake: string -> string)
    requires NamesWellFormed(Resolve(defs, codecs, snake))
    ensures Generate(defs, codecs, snake).Success?
    ensures multiset(PacketPaths(Generate(defs, codecs, snake).value)) == multiset(NamesOf(Resolve(defs, codecs, snake)))
    ensures Generate(defs, codecs, snake).value[0] == OpenModule(0, RootName)
    ensures FieldsOrdered(Resolve(defs, codecs, snake)) &&
            PacketsGenerated(Resolve(defs, codecs, snake), Generate(defs, codecs, snake).value)
    ensures OpenedAt(Generate(defs, codecs, snake).value, 0) == [RootName]
    ensures Enclosing(Generate(defs, codecs, snake).value, []) == []
    ensures ModulePlaced(Generate(defs, codecs, snake).value, [], 0, RootName, "")
  {
    ResolvedFieldsOrdered(defs, codecs, snake);
    var kept := Resolve(defs, codecs, snake);
    KeptLeavesFound(kept);
    ModulePlacement(kept, GroupIdentifiers(RootName, Identifiers(kept)), 0, "", []);
  }

  /** With well-formed names, the tree's rebuilt leaf names are the packet
      names, so every lookup of line 154 finds a packet. */
  lemma KeptLeavesFound(kept: PacketTable)
    requires NamesWellFormed(kept)
    ensures multiset(LeafNames(GroupIdentifiers(RootName, Identifiers(kept)), "")) == multiset(NamesOf(kept))
    ensures AllFound(kept, LeafNames(GroupIdentifiers(RootName, Identifiers(kept)), ""))
  {
    GroupLeafNames(RootName, Identifiers(kept));
    RebuiltAreNames(kept);
    FoundFromNames(kept, LeafNames(GroupIdentifiers(RootName, Identifiers(kept)), ""));
  }

  /** Names drawn from the collected packet names are all found. */
  lemma FoundFromNames(kept: PacketTable, leaves: seq<string>)
    requires multiset(leaves) == multiset(NamesOf(kept))
    ensures AllFound(kept, leaves)
  {
    var names := NamesOf(kept);
    forall i | 0 <= i < |leaves| ensures FindByName(kept, leaves[i]).Some? {
      assert leaves[i] in multiset(names);
      var j :| 0 <= j < |names| && names[j] == leaves[i];
      var k :| 0 <= k < |kept| && kept[k].1.name == Some(names[j]);
    }
  }

  /** The round trip needs well-formed names: `a..b` is filed under module `a`
      with leaf `b`, so `fmt` looks for a packet named `a.b`, finds none, and
      the `unwrap` at line 154 panics. */
  lemma EmptySegmentPanics(snake: string -> string)
    ensures Generate([(1, PacketDefinition(Some("a..b"), 0, Empty))], map[], snake).Failure?
  {
    ResolveNoFields([(1, PacketDefinition(Some("a..b"), 0, Empty))], map[], snake);
    IdentifiersOfEmptySegment();
    GroupEmptySegment();
    MissingLeafOfEmptySegment();
  }

  lemma IdentifiersOfEmptySegment()
    ensures Identifiers([(1, PacketDefinition(Some("a..b"), 0, Empty))]) == ["a::::b"]
  {
    var defs := [(1, PacketDefinition(Some("a..b"), 0, Empty))];
    assert NamesOf(defs) == ["a..b"] by {
      assert defs[..0] == [];
    }
    RewriteEmptySegment();
  }

  /** The only leaf of the tree built for `a..b` names no packet. */
  lemma MissingLeafOfEmptySegment()
    ensures !AllFound([(1, PacketDefinition(Some("a..b"), 0, Empty))],
                      LeafNames(Module(RootName, Node("a", Module("a", Empty, ["b"]), Empty), []), ""))
  {
    var defs := [(1, PacketDefinition(Some("a..b"), 0, Empty))];
    var names := LeafNames(Module(RootName, Node("a", Module("a", Empty, ["b"]), Empty), []), "");
    LeavesOfEmptySegment();
    assert names[0] == "a.b";
    assert FindByName(defs, names[0]).None?;
  }

  /** A packet without fields has no unknown codec, so it is kept, and
      converting its empty field map changes nothing. */
  lemma ResolveNoFields(defs: PacketTable, codecs: map<string, string>, snake: string -> string)
    requires forall i :: 0 <= i < |defs| ==> defs[i].1.fields == Empty
    ensures Resolve(defs, codecs, snake) == defs
  {
    var (converted, skipped) := ConvertAll(defs, codecs, snake);
    forall i | 0 <= i < |defs| ensures converted[i] == defs[i] && AllCodecsKnown(defs[i].1.fields, codecs) {
      assert Entries(defs[i].1.fields) == [];
    }
    assert converted == defs;
    assert skipped == {};
    RetainNothing(defs);
  }

  lemma {:induction false} RetainNothing(defs: PacketTable)
    ensures Retain(defs, {}) == defs
    decreases |defs|
  {
    if |defs| > 0 {
      RetainNothing(defs[1..]);
      assert defs == [defs[0]] + defs[1..];
    }
  }

  lemma LeavesOfEmptySegment()
    ensures LeafNames(Module(RootName, Node("a", Module("a", Empty, ["b"]), Empty), []), "") == ["a.b"]
  {
    var a := Module("a", Empty, ["b"]);
    assert ["b"][1..] == [] && "a." + "b" == "a.b";
    assert PrefixAll("a.", ["b"]) == ["a.b"];
    assert LeafNames(a, "a.") == ["a.b"];
    assert "" + a.name + "." == "a.";
    assert ChildLeafNames(Node("a", a, Empty), "") == LeafNames(a, "a.") + [];
  }

  lemma RewriteEmptySegment()
    ensures ReplaceDots("a..b") == "a::::b"
  {
    assert "a..b"[1..] == "..b" && "..b"[1..] == ".b" && ".b"[1..] == "b" && "b"[1..] == "";
    assert ReplaceDots("b") == "b";
    assert ReplaceDots(".b") == "::b";
    assert ReplaceDots("..b") == "::::b";
  }

  lemma SplitEmptySegment()
    ensures SplitPath("a::::b") == ["a", "", "b"]
  {
    var b: string := "b";
    assert b[1..] == [];
    assert SplitPath(b[1..]) == [""];
    assert [b[0]] + "" == b;
    assert SplitPath(b) == [b];
    var s1: string := "::b";
    assert StartsWithSeparator(s1) && s1[2..] == b;
    assert SplitPath(s1) == ["", b];
    var s2: string := "::::b";
    assert StartsWithSeparator(s2) && s2[2..] == s1;
    assert SplitPath(s2) == ["", "", b];
    var s3: string := "a::::b";
    assert !StartsWithSeparator(s3) && s3[1..] == s2;
    assert [s3[0]] + "" == "a";
  }

  lemma GroupEmptySegment()
    ensures GroupIdentifiers(RootName, ["a::::b"]) == Module(RootName, Node("a", Module("a", Empty, ["b"]), Empty), [])
  {
    var s := "a::::b";
    SplitEmptySegment();
    var root := NewModule(RootName);
    assert ["a::::b"][..0] == [];
    assert GroupIdentifiers(RootName, ["a::::b"]) == AddIdentifier(root, s);
    var parts := SplitPath(s);
    assert parts[..|parts| - 1] == ["a", ""] && parts[|parts| - 1] == "b";
    assert AddIdentifier(root, s) == InsertLeaf(root, ["a", ""], "b");
    var child := InsertLeaf(NewModule("a"), [""], "b");
    assert child == Module("a", Empty, ["b"]);
    assert InsertLeaf(root, ["a", ""], "b") == root.(children := Insert(Empty, "a", child));
  }
}

=== FILE: results.dfy ===
/** Option and Result values: the model's stand-ins for Rust's `Option` and for a
    panic or error return. */
module Results {

  datatype Option<+T> = None | Some(value: T)

  datatype Result<+T, +E> = Success(value: T) | Failure(error: E)
}
